=== FILE: README.md ===
# afrostream-node-amqp: a Dafny model of the reconnecting AMQP wrapper

`index.js` exports `AMQP`, an event emitter that wraps the amqplib broker client.
It does three things:

- It opens a connection and a channel.
- It recovers from every failure through one procedure, `onError`. That procedure
  drops both handles, announces `connection.closed` and calls `reopen`.
- `reopen` schedules a single `open()` 500 ms later, unless one is already pending.

`drain` subscribes a `channel.opened` handler. On every channel the manager opens,
that handler declares a durable fan-out exchange and a durable queue, binds them and
consumes. Each delivery is acknowledged and parsed. A body that parses is announced
as a `message`.

This project models that core as a pure state machine:

- `ConnectionManager.Step` takes the manager state and one event and returns the next
  state plus the trace of what the step did. The trace holds lifecycle notifications,
  `message` notifications, calls on the broker client and timer API, and exceptions
  that leave the wrapper.
- Events are either application calls (`open`, `reopen`, `on`, `drain`) or outcomes reported by
  the broker client and the timer: a connect or channel request resolved or rejected,
  an `error`/`close` on a handle, the timer firing, a delivery.
- Every promise callback runs to completion as one step. When a `then` handler throws,
  the step also runs the rejection handler (`onError`) that the rejection reaches
  (see "Left out").
- Each event names the application subscribers that throw while it is handled. Node's
  `emit` stops at the first listener that throws, and the model keeps that.

The modules:

| file | module | contents |
|---|---|---|
| wrappers.dfy | `Wrappers` | `Option`, `Result` |
| amqp.dfy | `Amqp` | JavaScript values and truthiness, options, broker calls, trace entries, counting helpers |
| notifier.dfy | `Notifier` | the emitter: listeners in subscription order, dispatch that stops at the first throw |
| consume.dfy | `ConsumeLoop` | `drain`'s validation, the four topology calls, the per-message callback |
| manager.dfy | `ConnectionManager` | the constructor, `open`'s three handlers, `onError`, `reopen`, the timer, `drain`, `Step`, `Run` |
| properties.dfy | `Properties` | per-step and whole-run theorems |
| scenarios.dfy | `Scenarios` | short event sequences with fully determined traces |

## Behaviour the model keeps from the code

- The constructor reads properties of its argument. Called with no options it throws.
  `autoReconnect` and `displayErrors` are true unless the option is exactly `false`.
- Several `open()` chains can be in flight at once: `drain` calls `open()`, and so do
  the application and the timer. Each chain is an attempt with its own stage.
- Only the connection's `error` event is listened to, not its `close`. The channel's
  `error` and `close` events both call `onError`, so an error followed by a close runs
  `onError` twice. It announces `connection.closed` twice but schedules at most one timer.
- Listeners are never removed. A handle the manager has dropped still calls `onError`.
- A `connection.closed` subscriber that throws inside `onError` stops it before
  `reopen`. The handles are already cleared, and no timer is scheduled.
- A throw from a `connection.opened` or `channel.opened` subscriber rejects the chain,
  and the rejection handler runs `onError`. Drain handlers subscribed before the throwing
  subscriber have already installed their topology.
- The consume callback acknowledges on the manager's current channel, not on the channel
  that delivered the message. When `onError` has cleared the channel, the
  acknowledgment throws and no `message` is announced.

**Channel without a connection.** One would expect a channel to exist only while its
connection exists. The code does not keep this when two `open()` chains overlap. Suppose one chain connects and a second chain's connect fails. The failure runs
`onError`, which clears the connection. When the first chain's channel then arrives, it
is stored with no connection held. `Scenarios.ConcurrentOpensLoseConnection` exhibits
this sequence. `Properties.StaleChannelIff` characterises exactly the step that breaks
the invariant. `Properties.ChannelImpliesConnection` proves that the invariant holds on
every run without such a step. The model follows the code here.

## Model

| member | source | states |
|---|---|---|
| ConnectionManager.Create | index.js:17-28 | throws exactly when no options object is given; `autoReconnect`/`displayErrors` are true unless the option is literally `false`; `endPoint` and `silent` are copied; no handle, timer, attempt or subscriber exists yet, and the invariants hold |
| ConnectionManager.Reopen | index.js:90-107 | with auto-reconnect off or a timer already pending, nothing happens; otherwise exactly one 500 ms timer is scheduled and recorded; nothing else changes and at most one timer stays pending |
| ConnectionManager.OnError | index.js:43-51 | both handles become null; `connection.closed` is announced first and exactly once; a throwing `connection.closed` subscriber skips the reopen; otherwise the rest of the trace is what `reopen` does; the timer count matches the scheduled timers and the invariants are kept |
| ConnectionManager.Open | index.js:40-58 | starts one new connect attempt to the configured endpoint and changes nothing else |
| ConnectionManager.OnConnected | index.js:59-68 | the connection is stored and watched before `connection.opened` is announced, and no other listener or consumer is touched; without a throwing subscriber a channel is requested on it and the attempt awaits it; with one, the rest of the trace and the final state are exactly onError's, run on the state holding the connection with the attempt settled |
| ConnectionManager.OnChannel | index.js:70-87 | `channel.opened` comes first, followed by the topology calls of every drain handler dispatched before any throw; without a throw the channel is held and the connection untouched; every earlier listener is kept; with a throw both handles end null, and the rest of the trace and the final state are exactly onError's, run on the state holding the new channel; the new channel is consuming afterwards exactly when a drain handler ran, since that handler's `consume` registers the callback on it |
| ConnectionManager.Installed | index.js:75-77 | the channel is held and watched, every earlier channel listener is kept and the connection listeners are untouched; it is consuming exactly when it already was or some drain handler registered a consumer on it (the `consume` call at line 124), and no other channel's consuming status changes; the invariants are kept |
| ConnectionManager.Reject | index.js:82-87 | a rejected connect or channel request settles its attempt and is handled by onError |
| ConnectionManager.FireTimer | index.js:101-104 | the timer clears the pending flag before calling `open()`; the pending timer count drops by one |
| ConnectionManager.Drain | index.js:109-141 | invalid options throw 'missing exchange/queue name' and change nothing; otherwise one `channel.opened` handler for that topology is appended to the subscribers and `open()` is called, and nothing else changes (no consumer or listener is dropped) |
| ConnectionManager.OnDeliver | index.js:124-135 | a delivery reaches the callback only on a channel that consumes; the manager state never changes |
| ConnectionManager.ChainStep | index.js:58-87 | a connection or channel for an attempt at that stage runs the first or second `then` handler, a refusal at that stage runs the rejection handler, and an outcome for an attempt at any other stage (settled, or not yet that far) changes nothing; outcomes keep the invariants, the subscribers and the timer accounting |
| ConnectionManager.HandleStep | index.js:65-77 | an `error` on a watched connection, or an `error` or `close` on a watched channel, is exactly onError; every other handle event (a connection's `close`, an unwatched handle) changes nothing and produces nothing; handle events change only the handles and the timer |
| ConnectionManager.ApiStep | index.js:40-141 | `open`, `reopen` and `drain` run their own operation; `on(topic, f)` appends `f` to the subscribers of `topic` and does nothing else; none of them touches the handles, they add at most one attempt and produce only a connect call, a timer or an exception |
| ConnectionManager.Step | index.js:40-141 | every step keeps the invariants (at most one pending timer, recorded by `reopenId`; every held handle is watched); a timer is scheduled exactly when the pending count rises, except when a timer fires; a firing with no timer pending changes nothing, one with a timer pending runs the timer callback, and a delivery runs the consume callback |
| ConnectionManager.Run | index.js:40-141 | every run from a consistent state ends in a consistent state |
| ConsumeLoop.Validate | index.js:110-117 | succeeds exactly when options exist and both names are truthy, and yields those names; otherwise fails with the missing-name error |
| ConsumeLoop.InstallCount | index.js:121-124 | one drain handler makes each of the four declaring calls once and nothing else |
| ConsumeLoop.Installs | index.js:120-124 | for `n` drain handlers, `4n` calls with each declaring kind exactly `n` times and no other kind |
| ConsumeLoop.InstallsInOrder | index.js:121-124 | the `i`-th handler's four calls (exchange, queue, bind, consume) form the `i`-th block of four |
| ConsumeLoop.OnMessage | index.js:124-135 | with no current channel the ack throws; otherwise exactly one ack on the current channel comes first, and a `message` carries the parsed value exactly when the body parses; once the ack succeeds no exception leaves the callback, since a parse failure is caught and the body dropped |
| Notifier.Emit | index.js:49 | listeners run in order; those that ran did not throw; a throw stops dispatch at the throwing listener |
| Notifier.EmitThrowsIff | index.js:66 | dispatch throws exactly when some listener throws; otherwise every listener ran |
| Notifier.Listeners | index.js:120 | the handlers of a topic are exactly the handlers subscribed to it |
| Notifier.Topologies | index.js:120-123 | the topologies listed are exactly those of the drain handlers among the handlers |
| Notifier.ListenersAppend | index.js:120 | a new subscription is called after all earlier ones |
| Notifier.TopologiesAppend | index.js:120-123 | the drain handlers of two listener lists concatenate |
| Properties.ConnectedShape | index.js:59-68 | the first handler announces `connection.opened` exactly once and never `channel.opened`, and moves its attempt to awaiting-channel or settled |
| Properties.ChannelParts | index.js:70-87 | the second handler's trace is `channel.opened`, then only topology calls, then only what onError adds |
| Properties.ChannelShape | index.js:70-80 | the second handler announces `channel.opened` exactly once and never `connection.opened` |
| Properties.ChainOnly | index.js:58-87 | the kinds of entry each chain outcome can produce |
| Properties.StepAcksFirst | index.js:128-131 | within a step every `message` comes right after an acknowledgment, and no step starts with a `message` |
| Properties.ChainGrows | index.js:64-87 | no outcome of a connect or channel request removes a listener or a consumer |
| Properties.StepGrows | index.js:65-77 | no step removes a connection or channel listener or a consumer |
| Properties.ListenersGrow | index.js:65-77 | over any run, every listener and consumer registered at the start is still registered at the end, so a dropped handle keeps reporting to onError |
| Properties.StepMessages | index.js:124-131 | a step announces a `message` exactly for a delivery on a consuming channel while a channel is held and the body parses, and then announces the parsed body |
| Properties.RunMessages | index.js:129-131 | every `message` announced over a run is the parsed body of some delivery in that run |
| Properties.RunAcksFirst | index.js:128-131 | across any run every `message` is immediately preceded by an acknowledgment |
| Properties.TimersWithoutFiring | index.js:97-105 | while no timer fires, scheduled timers equal the rise in pending timers, at most one is ever pending, and none is scheduled while one is pending |
| Properties.NoReconnectWhenDisabled | index.js:93-96 | with auto-reconnect off, no run ever schedules a timer |
| Properties.ChainOrdered | index.js:66-78 | every chain outcome announces `channel.opened` only by settling an attempt that already announced `connection.opened` |
| Properties.StepOpenedOrder | index.js:66-78 | every step keeps that order |
| Properties.ChannelOpenedAfterConnectionOpened | index.js:66-78 | across any run, `channel.opened` announcements never outnumber `connection.opened` ones plus the attempts already waiting for a channel |
| Properties.ChannelInstallsAll | index.js:75-80 | without throwing subscribers, a channel opening runs every drain registration's four calls in subscription order |
| Properties.SubscribeKeepsTopologies | index.js:120 | application subscriptions leave the drain registrations unchanged |
| Properties.ChainInstalls | index.js:70-87 | without throwing subscribers, a chain outcome either installs every topology on the new channel or declares nothing |
| Properties.OtherQuiet | index.js:40-141 | events outside the `open()` chains never declare topology or announce `channel.opened` |
| Properties.StepInstalls | index.js:120-124 | without new drain registrations or throwing subscribers, every step installs every topology on a new channel or declares nothing |
| Properties.StepTopology | index.js:120-124 | per step, each declaring call appears once per drain registration for each `channel.opened` |
| Properties.TopologyOncePerChannel | index.js:120-124 | across any run, each declaring call occurs exactly (drain registrations) × (`channel.opened` announcements) times |
| Properties.StepChannelNeedsConn | index.js:47-48 | every step except a stale channel opening keeps "channel present implies connection present" |
| Properties.StaleChannelIff | index.js:75 | a channel opening leaves a channel without a connection exactly when no connection is held and no `channel.opened` subscriber throws |
| Properties.ChannelImpliesConnection | index.js:47-75 | on runs without stale channel openings, a held channel implies a held connection |
| Scenarios.OnErrorQuietly | index.js:43-51 | with quiet subscribers, onError yields `connection.closed` and then the reopen's timer, if one is due |
| Scenarios.ConnectedQuietly | index.js:59-68 | with quiet subscribers, the first handler stores the connection and requests a channel |
| Scenarios.ChannelOpenedQuietly | index.js:70-80 | with quiet subscribers, the second handler installs every topology and holds the channel, which consumes afterwards exactly when it did before or some drain is registered |
| Scenarios.RejectedQuietly | index.js:82-87 | with quiet subscribers, a rejection clears both handles, settles the attempt and reopens |
| Scenarios.ChannelFailureStep | index.js:76-77 | an `error` or `close` on a channel the manager listens on is handled by onError |
| Scenarios.DeliveryWithoutChannel | index.js:124-128 | a delivery on a consuming channel while no channel is held throws in the ack and changes nothing |
| Scenarios.DrainStep | index.js:109-141 | `drain(options)` called by the application runs `drain` |
| Scenarios.DeliveryOnCurrentChannel | index.js:124-131 | a delivery on the held, consuming channel is acknowledged on it and its parsed body announced as `message`, with no state change |
| Scenarios.TimerStep | index.js:101-104 | a pending timer firing runs the timer callback |
| Scenarios.OpenSucceeds | index.js:58-80 | a successful `open()` traces connect, `connection.opened`, createChannel, `channel.opened` and the topology calls, and holds both handles |
| Scenarios.OpenConnectRefused | index.js:58-87 | a refused connect traces the connect call, `connection.closed` and the retry timer |
| Scenarios.OpenChannelRefused | index.js:58-87 | a refused channel request after a successful connect traces connect, `connection.opened`, createChannel, then `connection.closed` and the due timer, and ends with both handles null |
| Scenarios.ChannelErrorThenClose | index.js:76-77 | a channel `error` then `close` announces `connection.closed` twice and schedules at most one timer |
| Scenarios.TimerRetries | index.js:101-104 | a firing timer that leads to another refused connect schedules a fresh timer |
| Scenarios.ConcurrentOpensLoseConnection | index.js:47-80 | two overlapping `open()` chains can leave a channel held with no connection |
| Scenarios.DrainRegisters | index.js:120 | a drain registration's topology comes after the topologies registered before it |
| Scenarios.DrainConnects | index.js:58-140 | `drain` with valid options connects, announces `connection.opened`, requests a channel, and leaves its topology last among the registered ones |
| Scenarios.DrainThenDeliver | index.js:58-141 | after `drain`, its connection and its channel, every registered topology (the new one last) is installed on the channel, and a message arriving on it is acknowledged and announced |
| Scenarios.DeliveryAfterChannelError | index.js:128 | a delivery after the channel errored throws on the null channel and announces no `message` |

## Left out

- Logging: every `console.log`/`console.error` and the `displayErrors` and `silent` flags' effect on it. `displayErrors` and `silent` are stored but produce no trace entries.
- The `domain` object (index.js:54-55) is created and given `onError` but never entered, so it handles nothing; it is not modelled.
- The AMQP wire protocol and amqplib's internals. Connect, createChannel and the declare calls are recorded as calls; their outcomes arrive as events. The promises returned by the declare calls are ignored by the code, and so are their failures here.
- Promise scheduling. Each `then` callback runs atomically as one step, and the order of pending callbacks is chosen by the event sequence.
- Rejection propagation after a throwing `then` handler. When a `connection.opened` or `channel.opened` subscriber throws, the model runs the final rejection handler (`onError`, index.js:86) in the same step. In the code the rejection passes through the remaining `then` stages as separate microtasks, so another chain's callback can run before that `onError`. The model does not produce those interleavings.
- Real time. The 500 ms delay is a constant, and a `TimerFires` event stands for the callback running.
- JSON parsing. `JSON.parse(String(content))` is an abstract `parse` function returning `None` for bodies that fail to parse. The `Json` value type has integer numbers only (`JNumber(n: int)`), so non-integer numbers are not represented; no property depends on the number type.
- `JsValue` (the values read from `options`) has no objects, arrays, functions, `NaN` or non-integer numbers. These only matter for truthiness in `drain`'s check; every object, array and function is truthy, like a non-empty string, and a non-integer number is truthy like a non-zero integer. `NaN`, which is falsy like `0`, is not represented.
- What application subscribers do besides throwing. They cannot call back into the manager within a step, and their return values are ignored.
- A `message` subscriber that throws: the surrounding `try` swallows it exactly like a parse failure. The model announces the `message` and does not model the throw.
- Consumer cancellation. When the broker cancels a consumer, amqplib calls the consume callback with `null`. The callback then throws before any ack, reading `message.content` (index.js:126) or in `ack(null)` (index.js:128). Deliveries here always carry a body, so that path is not modelled.
- What amqplib does after a consume callback throws (`NullChannel`): the exception is recorded as a trace entry and the step ends.
- The return values of `open` (the promise of the channel) and `reopen` (`this`).
- Properties.TopologyOncePerChannel: holds for runs with no throwing subscribers and no new `drain` calls. A throwing subscriber cuts a dispatch short, and a `drain` during the run changes the number of registrations.
- Properties.ChannelImpliesConnection: proved only for runs without a stale channel opening, because the code does not keep the invariant otherwise (see above).

=== FILE: amqp.dfy ===
/** Data model of the broker-client wrapper: the JavaScript values it inspects,
    the calls it makes on the broker client, and the trace of everything it
    does (lifecycle notifications, broker calls, exceptions). */
module Amqp {
  import opened Wrappers

  /** Opaque handles the broker client hands out. */
  type ConnId = nat
  type ChanId = nat

  /** The JavaScript values an option can hold, as far as the wrapper tells them apart.
      Numbers are integers here (NaN is not modelled). */
  datatype JsValue = Undefined | Null | Bool(b: bool) | Num(n: int) | Str(s: string)

  /** JavaScript truthiness: `!v` is false exactly for these values. */
  predicate Truthy(v: JsValue)
  {
    match v
    case Undefined => false
    case Null => false
    case Bool(b) => b
    case Num(n) => n != 0
    case Str(s) => s != ""
  }

  /** The options object given to the constructor. */
  datatype Options = Options(autoReconnect: JsValue, displayErrors: JsValue, silent: JsValue, endPoint: JsValue)

  /** The options object given to `drain`. */
  datatype DrainOptions = DrainOptions(exchangeName: JsValue, queueName: JsValue)

  /** The exchange/queue pair one `drain` registration declares on every channel. */
  datatype Topology = Topology(exchange: JsValue, queue: JsValue)

  /** A deserialized message body. */
  datatype Json =
    | JNull
    | JBool(b: bool)
    | JNumber(n: int)
    | JString(s: string)
    | JArray(items: seq<Json>)
    | JObject(members: seq<(string, Json)>)

  /** Delay of the reconnect timer, in milliseconds. */
  const ReconnectDelayMs: nat := 500

  /** The exchange type every `drain` registration declares. */
  const Fanout: string := "fanout"

  /** The calls the wrapper makes on the broker client (and on the timer API). */
  datatype BrokerCall =
    | Connect(url: JsValue)
    | CreateChannel(conn: ConnId)
    | AssertExchange(ch: ChanId, exchange: JsValue, exchangeType: string, durable: bool)
    | AssertQueue(ch: ChanId, queue: JsValue, durable: bool)
    | BindQueue(ch: ChanId, queue: JsValue, exchange: JsValue)
    | Consume(ch: ChanId, queue: JsValue)
    | Ack(ch: ChanId, delivery: nat)
    | SetTimeout(delayMs: nat)

  /** The lifecycle notifications: `connection.opened`, `connection.closed`, `channel.opened`. */
  datatype Lifecycle = ConnectionOpened | ConnectionClosed | ChannelOpened

  /** What an application can subscribe to: a lifecycle notification or `message`. */
  datatype Topic = On(event: Lifecycle) | OnMessage

  /** Exceptions that leave the wrapper. */
  datatype JsError =
    | MissingOptions     // the constructor reads a property of `undefined`
    | MissingNames       // `drain`: 'missing exchange/queue name'
    | NullChannel        // the consume callback acks on a `null` channel
    | SubscriberThrew    // a `connection.closed` subscriber threw inside onError

  /** One entry of the observable trace. */
  datatype Out =
    | Notify(event: Lifecycle)
    | Message(value: Json)
    | Call(call: BrokerCall)
    | Raised(error: JsError)

  /** Classification of trace entries, for counting. */
  datatype Kind =
    | Notified(event: Lifecycle)
    | Delivered
    | Connects
    | CreatesChannel
    | AssertsExchange
    | AssertsQueue
    | BindsQueue
    | Consumes
    | Acks
    | SchedulesTimer
    | Raises

  function KindOf(o: Out): Kind
  {
    match o
    case Notify(e) => Notified(e)
    case Message(_) => Delivered
    case Raised(_) => Raises
    case Call(c) =>
      match c
      case Connect(_) => Connects
      case CreateChannel(_) => CreatesChannel
      case AssertExchange(_, _, _, _) => AssertsExchange
      case AssertQueue(_, _, _) => AssertsQueue
      case BindQueue(_, _, _) => BindsQueue
      case Consume(_, _) => Consumes
      case Ack(_, _) => Acks
      case SetTimeout(_) => SchedulesTimer
  }

  /** Number of trace entries of kind `k`. */
  function Count(out: seq<Out>, k: Kind): nat
  {
    if out == [] then 0 else (if KindOf(out[0]) == k then 1 else 0) + Count(out[1..], k)
  }

  lemma {:induction false} CountAppend(a: seq<Out>, b: seq<Out>, k: Kind)
    ensures Count(a + b, k) == Count(a, k) + Count(b, k)
  {
    if a != [] {
      assert (a + b)[0] == a[0];
      assert (a + b)[1..] == a[1..] + b;
      CountAppend(a[1..], b, k);
    } else {
      assert a + b == b;
    }
  }

  lemma CountCons(o: Out, rest: seq<Out>, k: Kind)
    ensures Count([o] + rest, k) == (if KindOf(o) == k then 1 else 0) + Count(rest, k)
  {
    assert ([o] + rest)[0] == o;
    assert ([o] + rest)[1..] == rest;
  }

  /** Every entry of `out` has a kind in `ks`. */
  predicate Only(out: seq<Out>, ks: set<Kind>)
  {
    forall i | 0 <= i < |out| :: KindOf(out[i]) in ks
  }

  lemma OnlyMono(out: seq<Out>, ks: set<Kind>, ks': set<Kind>)
    requires Only(out, ks) && ks <= ks'
    ensures Only(out, ks')
  {
  }

  lemma OnlyAppend(a: seq<Out>, b: seq<Out>, ka: set<Kind>, kb: set<Kind>)
    requires Only(a, ka) && Only(b, kb)
    ensures Only(a + b, ka + kb)
  {
    forall i | 0 <= i < |a + b| ensures KindOf((a + b)[i]) in ka + kb {
      if i >= |a| {
        assert (a + b)[i] == b[i - |a|];
      }
    }
  }

  lemma {:induction false} CountOutside(out: seq<Out>, ks: set<Kind>, k: Kind)
    requires Only(out, ks) && k !in ks
    ensures Count(out, k) == 0
  {
    if out != [] {
      assert Only(out[1..], ks) by {
        forall i | 0 <= i < |out[1..]| ensures KindOf(out[1..][i]) in ks {
          assert out[1..][i] == out[i + 1];
        }
      }
      CountOutside(out[1..], ks, k);
    }
  }

  /** The values of the `message` notifications in `out`, in order. */
  function Messages(out: seq<Out>): seq<Json>
  {
    if out == [] then []
    else (if out[0].Message? then [out[0].value] else []) + Messages(out[1..])
  }

  lemma {:induction false} MessagesAppend(a: seq<Out>, b: seq<Out>)
    ensures Messages(a + b) == Messages(a) + Messages(b)
  {
    if a != [] {
      assert (a + b)[0] == a[0];
      assert (a + b)[1..] == a[1..] + b;
      MessagesAppend(a[1..], b);
    } else {
      assert a + b == b;
    }
  }

  lemma {:induction false} MessagesOutside(out: seq<Out>, ks: set<Kind>)
    requires Only(out, ks) && Delivered !in ks
    ensures Messages(out) == []
  {
    if out != [] {
      assert KindOf(out[0]) in ks;
      assert Only(out[1..], ks) by {
        forall i | 0 <= i < |out[1..]| ensures KindOf(out[1..][i]) in ks {
          assert out[1..][i] == out[i + 1];
        }
      }
      MessagesOutside(out[1..], ks);
    }
  }

  /** Every `message` notification in `out` comes right after an acknowledgment. */
  predicate AcksFirst(out: seq<Out>)
  {
    forall i | 0 <= i < |out| && out[i].Message? :: 0 < i && KindOf(out[i - 1]) == Acks
  }

  /** A trace without `message` notifications trivially acks first. */
  lemma SilentAcksFirst(out: seq<Out>, ks: set<Kind>)
    requires Only(out, ks) && Delivered !in ks
    ensures AcksFirst(out) && (out == [] || !out[0].Message?)
  {
    forall i | 0 <= i < |out| ensures !out[i].Message? {
      assert KindOf(out[i]) in ks;
    }
  }

  /** Gluing two traces keeps every notification right after its ack, as long
      as the second does not start with a notification. */
  lemma AcksFirstAppend(a: seq<Out>, b: seq<Out>)
    requires AcksFirst(a) && AcksFirst(b)
    requires b == [] || !b[0].Message?
    ensures AcksFirst(a + b)
  {
    forall i | 0 <= i < |a + b| && (a + b)[i].Message?
      ensures 0 < i && KindOf((a + b)[i - 1]) == Acks
    {
      if i >= |a| {
        assert (a + b)[i] == b[i - |a|];
        assert (a + b)[i - 1] == b[i - |a| - 1];
      }
    }
  }
}

=== FILE: consume.dfy ===
/** The consume loop: validation of a `drain` registration, the topology its
    `channel.opened` handler installs, and the per-message callback. */
module ConsumeLoop {
  import opened Wrappers
  import opened Amqp

  /** The synchronous check `drain` makes before doing anything else. */
  function Validate(options: Option<DrainOptions>): (r: Result<Topology, JsError>)
    ensures r.Success? <==>
              options.Some? && Truthy(options.value.exchangeName) && Truthy(options.value.queueName)
    ensures r.Success? ==> r.value == Topology(options.value.exchangeName, options.value.queueName)
    ensures r.Failure? ==> r.error == MissingNames
  {
    if options.None? || !Truthy(options.value.exchangeName) || !Truthy(options.value.queueName) then
      Failure(MissingNames)
    else
      Success(Topology(options.value.exchangeName, options.value.queueName))
  }

  /** The four calls one drain handler makes on channel `ch`. */
  function Install(ch: ChanId, t: Topology): seq<Out>
  {
    [ Call(AssertExchange(ch, t.exchange, Fanout, true)),
      Call(AssertQueue(ch, t.queue, true)),
      Call(BindQueue(ch, t.queue, t.exchange)),
      Call(Consume(ch, t.queue)) ]
  }

  /** The kinds of call a topology installation makes. */
  predicate Declares(k: Kind)
  {
    k == AssertsExchange || k == AssertsQueue || k == BindsQueue || k == Consumes
  }

  /** One drain handler makes one call of each declaring kind. */
  lemma InstallCount(ch: ChanId, t: Topology, k: Kind)
    ensures Count(Install(ch, t), k) == if Declares(k) then 1 else 0
  {
    var out := Install(ch, t);
    assert out == [out[0]] + ([out[1]] + ([out[2]] + ([out[3]] + [])));
    CountCons(out[3], [], k);
    CountCons(out[2], [out[3]] + [], k);
    CountCons(out[1], [out[2]] + ([out[3]] + []), k);
    CountCons(out[0], [out[1]] + ([out[2]] + ([out[3]] + [])), k);
  }

  /** The drain handlers for `ts`, run one after the other on channel `ch`:
      each declares its durable fan-out exchange, its durable queue, binds
      them and consumes, in that order, exactly once. */
  function Installs(ch: ChanId, ts: seq<Topology>): (out: seq<Out>)
    ensures |out| == 4 * |ts|
    ensures forall k :: Count(out, k) == if Declares(k) then |ts| else 0
    ensures Only(out, {AssertsExchange, AssertsQueue, BindsQueue, Consumes})
  {
    if ts == [] then []
    else
      var head := Install(ch, ts[0]);
      var rest := Installs(ch, ts[1..]);
      assert forall k :: Count(head + rest, k) == if Declares(k) then |ts| else 0 by {
        forall k ensures Count(head + rest, k) == if Declares(k) then |ts| else 0 {
          InstallCount(ch, ts[0], k);
          CountAppend(head, rest, k);
        }
      }
      head + rest
  }

  /** The `i`-th drain handler's four calls sit in the `i`-th block of four. */
  lemma {:induction false} InstallsInOrder(ch: ChanId, ts: seq<Topology>, i: nat)
    requires i < |ts|
    ensures 4 * i + 4 <= |Installs(ch, ts)|
    ensures Installs(ch, ts)[4 * i .. 4 * i + 4] == Install(ch, ts[i])
  {
    var head := Install(ch, ts[0]);
    var rest := Installs(ch, ts[1..]);
    assert Installs(ch, ts) == head + rest;
    if i > 0 {
      InstallsInOrder(ch, ts[1..], i - 1);
      assert (head + rest)[4 * i .. 4 * i + 4] == rest[4 * (i - 1) .. 4 * (i - 1) + 4];
    }
  }

  /** The per-message callback. It acknowledges on the manager's CURRENT
      channel (not necessarily the one that delivered the message), then
      parses the body; a body that does not parse is dropped. With no
      current channel the acknowledgment itself throws. */
  function OnMessage(current: Option<ChanId>, delivery: nat, content: string,
                     parse: string -> Option<Json>): (out: seq<Out>)
    ensures current.None? ==> out == [Raised(NullChannel)]
    ensures current.Some? ==> |out| > 0 && out[0] == Call(Ack(current.value, delivery))
    ensures current.Some? ==> Count(out, Acks) == 1
    ensures current.Some? ==> Count(out, Raises) == 0
    ensures Messages(out) == if current.Some? && parse(content).Some? then [parse(content).value] else []
    ensures AcksFirst(out)
    ensures Only(out, {Acks, Delivered, Raises})
  {
    match current
    case None => [Raised(NullChannel)]
    case Some(ch) =>
      match parse(content)
      case Some(v) => [Call(Ack(ch, delivery)), Message(v)]
      case None => [Call(Ack(ch, delivery))]
  }
}

=== FILE: manager.dfy ===
/** The connection manager (`AMQP` in index.js): the constructor, the staged
    `open` chain with its single recovery procedure `onError`, the debounced
    `reopen`, and `drain`. The broker is an abstract source of events; each
    event is handled by one pure transition that returns the next state and
    the trace entries it produced. */
module ConnectionManager {
  import opened Wrappers
  import opened Amqp
  import opened Notifier
  import ConsumeLoop

  /** Where one `open()` promise chain is. */
  datatype Stage =
    | Connecting                  // `amqp.connect` pending
    | AwaitingChannel(conn: ConnId) // `createChannel` pending on `conn`
    | Settled                     // the chain has run its last handler

  /** The manager object. `conn`, `channel` and `reopenPending` are the
      source's `conn`, `channel` and `reopenId` fields; the rest records what
      the broker client and the timer API hold on the manager's behalf. */
  datatype State = State(
    autoReconnect: bool,
    displayErrors: bool,
    silent: JsValue,
    endPoint: JsValue,
    conn: Option<ConnId>,
    channel: Option<ChanId>,
    reopenPending: bool,
    timers: nat,                  // setTimeout callbacks scheduled and not yet run
    attempts: seq<Stage>,         // every open() chain, indexed by attempt number
    subscribers: seq<Subscriber>, // the emitter's listeners, in subscription order
    connListeners: set<ConnId>,   // connections whose 'error' calls onError
    chanListeners: set<ChanId>,   // channels whose 'error' and 'close' call onError
    consuming: set<ChanId>)       // channels with the consume callback registered

  /** The next state and the trace entries one step produced. */
  datatype Transition = Transition(after: State, out: seq<Out>)

  /** The invariants every reachable state keeps. */
  predicate Consistent(s: State)
  {
    // at most one reconnect timer, and it is the one `reopenId` records
    && s.timers == (if s.reopenPending then 1 else 0)
    // no timer while auto-reconnect is off
    && (s.reopenPending ==> s.autoReconnect)
    // every handle the manager holds reports its failures to onError
    && (s.conn.Some? ==> s.conn.value in s.connListeners)
    && (s.channel.Some? ==> s.channel.value in s.chanListeners)
    && s.consuming <= s.chanListeners
    && (forall a | 0 <= a < |s.attempts| && s.attempts[a].AwaitingChannel? ::
          s.attempts[a].conn in s.connListeners)
  }

  /** Nothing held, nothing pending, nobody subscribed. */
  predicate Idle(s: State)
  {
    && s.conn.None? && s.channel.None?
    && !s.reopenPending && s.timers == 0
    && s.attempts == [] && s.subscribers == []
    && s.connListeners == {} && s.chanListeners == {} && s.consuming == {}
  }

  /** The constructor. The two flags are on unless the option is exactly `false`. */
  function Create(options: Option<Options>): (r: Result<State, JsError>)
    ensures r.Failure? <==> options.None?
    ensures r.Failure? ==> r.error == MissingOptions
    ensures r.Success? ==> r.value.autoReconnect == (options.value.autoReconnect != Bool(false))
    ensures r.Success? ==> r.value.displayErrors == (options.value.displayErrors != Bool(false))
    ensures r.Success? ==> r.value.endPoint == options.value.endPoint && r.value.silent == options.value.silent
    ensures r.Success? ==> Idle(r.value) && Consistent(r.value)
  {
    match options
    case None => Failure(MissingOptions)
    case Some(o) =>
      Success(State(
        autoReconnect := !(o.autoReconnect == Bool(false)),
        displayErrors := !(o.displayErrors == Bool(false)),
        silent := o.silent,
        endPoint := o.endPoint,
        conn := None,
        channel := None,
        reopenPending := false,
        timers := 0,
        attempts := [],
        subscribers := [],
        connListeners := {},
        chanListeners := {},
        consuming := {}))
  }

  /** `reopen`: the debounced reconnect. */
  function Reopen(s: State): (r: Transition)
    ensures r.after == s.(reopenPending := r.after.reopenPending, timers := r.after.timers)
    ensures r.after.reopenPending <==> s.reopenPending || s.autoReconnect
    ensures !s.autoReconnect || s.reopenPending ==> r == Transition(s, [])
    ensures r.out == [] || r.out == [Call(SetTimeout(ReconnectDelayMs))]
    ensures Only(r.out, {SchedulesTimer, Raises})
    ensures Count(r.out, SchedulesTimer) + s.timers == r.after.timers
    ensures Consistent(s) ==> Consistent(r.after)
  {
    if !s.autoReconnect then
      Transition(s, [])
    else if s.reopenPending then
      Transition(s, [])
    else
      Transition(s.(reopenPending := true, timers := s.timers + 1), [Call(SetTimeout(ReconnectDelayMs))])
  }

  /** `onError`, the single recovery procedure every failure goes through:
      drop both handles, announce `connection.closed`, then reopen. A
      `connection.closed` subscriber that throws stops it before the reopen. */
  function OnError(s: State, throwing: set<nat>): (r: Transition)
    ensures r.after.conn.None? && r.after.channel.None?
    ensures r.after == s.(conn := None, channel := None, reopenPending := r.after.reopenPending,
                          timers := r.after.timers)
    ensures |r.out| > 0 && r.out[0] == Notify(ConnectionClosed)
    ensures Count(r.out, Notified(ConnectionClosed)) == 1
    ensures var closedThrows := Emit(Listeners(s.subscribers, On(ConnectionClosed)), throwing).threw;
            && (r.after.reopenPending <==> s.reopenPending || (s.autoReconnect && !closedThrows))
            && (closedThrows ==> r.out == [Notify(ConnectionClosed), Raised(SubscriberThrew)])
            && (!closedThrows ==> r.out[1..] == Reopen(s.(conn := None, channel := None)).out)
    ensures Count(r.out, SchedulesTimer) + s.timers == r.after.timers
    ensures Only(r.out, {Notified(ConnectionClosed), SchedulesTimer, Raises})
    ensures Consistent(s) ==> Consistent(r.after)
  {
    var cleared := s.(conn := None, channel := None);
    var d := Emit(Listeners(s.subscribers, On(ConnectionClosed)), throwing);
    if d.threw then
      Announced(Transition(cleared, [Raised(SubscriberThrew)]))
    else
      Announced(Reopen(cleared))
  }

  /** `connection.closed`, announced ahead of what the rest of onError did. */
  function Announced(t: Transition): (r: Transition)
    requires Only(t.out, {SchedulesTimer, Raises})
    ensures r.after == t.after
    ensures |r.out| == |t.out| + 1 && r.out[0] == Notify(ConnectionClosed) && r.out[1..] == t.out
    ensures Count(r.out, Notified(ConnectionClosed)) == 1
    ensures Count(r.out, SchedulesTimer) == Count(t.out, SchedulesTimer)
    ensures Only(r.out, {Notified(ConnectionClosed), SchedulesTimer, Raises})
  {
    CountCons(Notify(ConnectionClosed), t.out, Notified(ConnectionClosed));
    CountCons(Notify(ConnectionClosed), t.out, SchedulesTimer);
    CountOutside(t.out, {SchedulesTimer, Raises}, Notified(ConnectionClosed));
    OnlyAppend([Notify(ConnectionClosed)], t.out, {Notified(ConnectionClosed)}, {SchedulesTimer, Raises});
    Transition(t.after, [Notify(ConnectionClosed)] + t.out)
  }

  /** The synchronous part of `open()`: start a connection attempt. */
  function Open(s: State): (r: Transition)
    ensures |r.after.attempts| == |s.attempts| + 1 && r.after.attempts[|s.attempts|] == Connecting
    ensures r.after == s.(attempts := r.after.attempts) && r.after.attempts[..|s.attempts|] == s.attempts
    ensures r.out == [Call(Connect(s.endPoint))]
    ensures Count(r.out, SchedulesTimer) == 0
    ensures Only(r.out, {Connects})
    ensures Consistent(s) ==> Consistent(r.after)
  {
    CountCons(Call(Connect(s.endPoint)), [], SchedulesTimer);
    Transition(s.(attempts := s.attempts + [Connecting]), [Call(Connect(s.endPoint))])
  }

  /** Holding a connection that is watched keeps the invariants, whatever
      becomes of the attempt it settles or advances. */
  lemma ConnectedConsistent(s: State, a: nat, c: ConnId, stage: Stage)
    requires a < |s.attempts| && (stage == Settled || stage == AwaitingChannel(c))
    ensures Consistent(s) ==>
              Consistent(s.(conn := Some(c), connListeners := s.connListeners + {c}, attempts := s.attempts[a := stage]))
  {
  }

  /** The first `then` handler: the connection of attempt `a` is up. It is
      stored and watched for 'error' (and only 'error'), `connection.opened`
      is announced, and a channel is requested. A subscriber that throws
      rejects the chain, which ends in onError. */
  function OnConnected(s: State, a: nat, c: ConnId, throwing: set<nat>): (r: Transition)
    requires a < |s.attempts| && s.attempts[a].Connecting?
    ensures |r.out| > 0 && r.out[0] == Notify(ConnectionOpened)
    ensures c in r.after.connListeners
    ensures r.after.connListeners == s.connListeners + {c}
    ensures r.after.chanListeners == s.chanListeners && r.after.consuming == s.consuming
    ensures var fired := Emit(Listeners(s.subscribers, On(ConnectionOpened)), throwing);
            && (!fired.threw ==> r.out == [Notify(ConnectionOpened), Call(CreateChannel(c))]
                                  && r.after.conn == Some(c)
                                  && r.after.attempts == s.attempts[a := AwaitingChannel(c)])
            && (fired.threw ==> r.out[1..] == OnError(s.(conn := Some(c), connListeners := s.connListeners + {c},
                                                          attempts := s.attempts[a := Settled]), throwing).out
                                && r.after == OnError(s.(conn := Some(c), connListeners := s.connListeners + {c},
                                                         attempts := s.attempts[a := Settled]), throwing).after)
    ensures r.after.channel.Some? ==> r.after.channel == s.channel
    ensures |r.after.attempts| == |s.attempts|
    ensures Count(r.out, SchedulesTimer) + s.timers == r.after.timers
    ensures Consistent(s) ==> Consistent(r.after)
  {
    var d := Emit(Listeners(s.subscribers, On(ConnectionOpened)), throwing);
    if d.threw then
      ConnectedConsistent(s, a, c, Settled);
      var e := OnError(s.(conn := Some(c), connListeners := s.connListeners + {c},
                          attempts := s.attempts[a := Settled]), throwing);
      CountCons(Notify(ConnectionOpened), e.out, SchedulesTimer);
      Transition(e.after, [Notify(ConnectionOpened)] + e.out)
    else
      ConnectedConsistent(s, a, c, AwaitingChannel(c));
      CountCons(Notify(ConnectionOpened), [Call(CreateChannel(c))], SchedulesTimer);
      CountCons(Call(CreateChannel(c)), [], SchedulesTimer);
      Transition(s.(conn := Some(c), connListeners := s.connListeners + {c},
                    attempts := s.attempts[a := AwaitingChannel(c)]),
                 [Notify(ConnectionOpened), Call(CreateChannel(c))])
  }

  /** The second `then` handler: the channel of attempt `a` is up. It is
      stored and watched for 'error' and 'close', and `channel.opened` is
      announced: every drain handler subscribed before the first throwing
      subscriber installs its topology on it. A throw ends in onError. */
  function OnChannel(s: State, a: nat, ch: ChanId, throwing: set<nat>): (r: Transition)
    requires a < |s.attempts| && s.attempts[a].AwaitingChannel?
    ensures |r.out| > 0 && r.out[0] == Notify(ChannelOpened)
    ensures ch in r.after.chanListeners
    ensures s.chanListeners <= r.after.chanListeners && r.after.connListeners == s.connListeners
    ensures var fired := Emit(Listeners(s.subscribers, On(ChannelOpened)), throwing);
            var installs := ConsumeLoop.Installs(ch, Topologies(fired.ran));
            && |r.out| >= 1 + |installs|
            && r.out[..1 + |installs|] == [Notify(ChannelOpened)] + installs
            && (!fired.threw ==> |r.out| == 1 + |installs| && r.after.channel == Some(ch) && r.after.conn == s.conn)
            && (fired.threw ==> r.after.conn.None? && r.after.channel.None?
                                && r.out[1 + |installs|..] == OnError(Installed(s, a, ch, Topologies(fired.ran)), throwing).out
                                && r.after == OnError(Installed(s, a, ch, Topologies(fired.ran)), throwing).after)
    ensures r.after.attempts == s.attempts[a := Settled]
    ensures var ts := Topologies(Emit(Listeners(s.subscribers, On(ChannelOpened)), throwing).ran);
            r.after.consuming == if ts == [] then s.consuming else s.consuming + {ch}
    ensures Count(r.out, SchedulesTimer) + s.timers == r.after.timers
    ensures Consistent(s) ==> Consistent(r.after)
  {
    var d := Emit(Listeners(s.subscribers, On(ChannelOpened)), throwing);
    var ts := Topologies(d.ran);
    var installed := Installed(s, a, ch, ts);
    var installs := ConsumeLoop.Installs(ch, ts);
    var out := [Notify(ChannelOpened)] + installs;
    CountCons(Notify(ChannelOpened), installs, SchedulesTimer);
    if d.threw then Preceded(out, OnError(installed, throwing))
    else
      Transition(installed, out)
  }

  /** What `t` did, after the output `head` of an earlier part of the same step. */
  function Preceded(head: seq<Out>, t: Transition): (r: Transition)
    ensures r.after == t.after
    ensures |r.out| == |head| + |t.out| && r.out[..|head|] == head && r.out[|head|..] == t.out
    ensures Count(r.out, SchedulesTimer) == Count(head, SchedulesTimer) + Count(t.out, SchedulesTimer)
  {
    CountAppend(head, t.out, SchedulesTimer);
    assert (head + t.out)[..|head|] == head;
    assert (head + t.out)[|head|..] == t.out;
    Transition(t.after, head + t.out)
  }

  /** The state right after the channel of attempt `a` is stored and the
      drain handlers for `ts` have registered their consumers on it. */
  function Installed(s: State, a: nat, ch: ChanId, ts: seq<Topology>): (r: State)
    requires a < |s.attempts| && s.attempts[a].AwaitingChannel?
    ensures r.channel == Some(ch) && ch in r.chanListeners
    ensures s.chanListeners <= r.chanListeners && r.connListeners == s.connListeners
    ensures ch in r.consuming <==> ch in s.consuming || ts != []
    ensures r.consuming - {ch} == s.consuming - {ch}
    ensures Consistent(s) ==> Consistent(r)
  {
    s.(channel := Some(ch), chanListeners := s.chanListeners + {ch},
       attempts := s.attempts[a := Settled],
       consuming := if ts == [] then s.consuming else s.consuming + {ch})
  }

  /** The final rejection handler: connect or createChannel of attempt `a` failed. */
  function Reject(s: State, a: nat, throwing: set<nat>): (r: Transition)
    requires a < |s.attempts| && !s.attempts[a].Settled?
    ensures r == OnError(s.(attempts := s.attempts[a := Settled]), throwing)
    ensures Count(r.out, SchedulesTimer) + s.timers == r.after.timers
    ensures Consistent(s) ==> Consistent(r.after)
  {
    OnError(s.(attempts := s.attempts[a := Settled]), throwing)
  }

  /** The reconnect timer fires: it clears `reopenId` first, then calls `open()`. */
  function FireTimer(s: State): (r: Transition)
    requires s.timers > 0
    ensures !r.after.reopenPending && r.after.timers == s.timers - 1
    ensures r == Open(s.(reopenPending := false, timers := s.timers - 1))
    ensures Count(r.out, SchedulesTimer) + s.timers == r.after.timers + 1
    ensures Consistent(s) ==> Consistent(r.after)
  {
    Open(s.(reopenPending := false, timers := s.timers - 1))
  }

  /** `drain`: validate synchronously, subscribe the topology handler to
      `channel.opened`, then `open()`. */
  function Drain(s: State, options: Option<DrainOptions>): (r: Transition)
    ensures ConsumeLoop.Validate(options).Failure? <==> r.out == [Raised(MissingNames)]
    ensures ConsumeLoop.Validate(options).Failure? ==> r.after == s
    ensures ConsumeLoop.Validate(options).Success? ==>
              r.after == s.(subscribers := r.after.subscribers, attempts := r.after.attempts)
    ensures ConsumeLoop.Validate(options).Success? ==>
              && r.out == [Call(Connect(s.endPoint))]
              && r.after.subscribers
                 == s.subscribers + [Subscriber(On(ChannelOpened), DrainHandler(ConsumeLoop.Validate(options).value))]
              && r.after.attempts == s.attempts + [Connecting]
    ensures Count(r.out, SchedulesTimer) + s.timers == r.after.timers
    ensures Only(r.out, {Connects, Raises})
    ensures Consistent(s) ==> Consistent(r.after)
  {
    match ConsumeLoop.Validate(options)
    case Failure(e) =>
      CountCons(Raised(e), [], SchedulesTimer);
      Transition(s, [Raised(e)])
    case Success(t) =>
      Open(s.(subscribers := s.subscribers + [Subscriber(On(ChannelOpened), DrainHandler(t))]))
  }

  /** The broker delivers a message to the consume callback registered on `ch`. */
  function OnDeliver(s: State, ch: ChanId, delivery: nat, content: string,
                     parse: string -> Option<Json>): (r: Transition)
    ensures r.after == s
    ensures ch in s.consuming ==> r.out == ConsumeLoop.OnMessage(s.channel, delivery, content, parse)
    ensures ch !in s.consuming ==> r.out == []
    ensures Count(r.out, SchedulesTimer) == 0
  {
    if ch in s.consuming then
      var out := ConsumeLoop.OnMessage(s.channel, delivery, content, parse);
      CountOutside(out, {Acks, Delivered, Raises}, SchedulesTimer);
      Transition(s, out)
    else Transition(s, [])
  }

  /** What can happen next: a call by the application, or something the
      broker client or the timer API reports. */
  datatype Event =
    | OpenCalled
    | ReopenCalled
    | Subscribe(topic: Topic, id: nat)
    | DrainCalled(options: Option<DrainOptions>)
    | ConnectOk(attempt: nat, conn: ConnId)
    | ConnectFailed(attempt: nat)
    | ChannelOk(attempt: nat, ch: ChanId)
    | ChannelFailed(attempt: nat)
    | ConnError(conn: ConnId)
    | ConnClose(conn: ConnId)
    | ChanError(ch: ChanId)
    | ChanClose(ch: ChanId)
    | TimerFires
    | Deliver(ch: ChanId, delivery: nat, content: string)

  /** An event together with the application callbacks that throw while it is handled. */
  datatype Input = Input(event: Event, throwing: set<nat>)

  /** Attempt `a` is waiting for its connection. */
  predicate IsConnecting(s: State, a: nat)
  {
    a < |s.attempts| && s.attempts[a].Connecting?
  }

  /** Attempt `a` is waiting for its channel. */
  predicate IsAwaitingChannel(s: State, a: nat)
  {
    a < |s.attempts| && s.attempts[a].AwaitingChannel?
  }

  /** Outcomes of an `open()` chain's two broker calls. */
  predicate ChainEvent(e: Event)
  {
    e.ConnectOk? || e.ConnectFailed? || e.ChannelOk? || e.ChannelFailed?
  }

  /** Events on a connection or channel handle. */
  predicate HandleEvent(e: Event)
  {
    e.ConnError? || e.ConnClose? || e.ChanError? || e.ChanClose?
  }

  /** Calls the application makes. */
  predicate ApiEvent(e: Event)
  {
    e.OpenCalled? || e.ReopenCalled? || e.Subscribe? || e.DrainCalled?
  }

  /** The handlers of the `open()` chains. Outcomes for settled or unknown
      attempts change nothing. */
  function ChainStep(s: State, i: Input): (r: Transition)
    requires ChainEvent(i.event)
    ensures i.event.ConnectOk? && IsConnecting(s, i.event.attempt) ==>
              r == OnConnected(s, i.event.attempt, i.event.conn, i.throwing)
    ensures i.event.ConnectFailed? && IsConnecting(s, i.event.attempt) ==> r == Reject(s, i.event.attempt, i.throwing)
    ensures i.event.ChannelOk? && IsAwaitingChannel(s, i.event.attempt) ==>
              r == OnChannel(s, i.event.attempt, i.event.ch, i.throwing)
    ensures i.event.ChannelFailed? && IsAwaitingChannel(s, i.event.attempt) ==> r == Reject(s, i.event.attempt, i.throwing)
    ensures (i.event.ConnectOk? || i.event.ConnectFailed?) && !IsConnecting(s, i.event.attempt) ==> r == Transition(s, [])
    ensures (i.event.ChannelOk? || i.event.ChannelFailed?) && !IsAwaitingChannel(s, i.event.attempt) ==> r == Transition(s, [])
    ensures Consistent(s) ==> Consistent(r.after)
    ensures r.after.autoReconnect == s.autoReconnect && r.after.endPoint == s.endPoint
    ensures r.after.subscribers == s.subscribers
    ensures Count(r.out, SchedulesTimer) + s.timers == r.after.timers
  {
    match i.event
    case ConnectOk(a, c) =>
      if IsConnecting(s, a) then OnConnected(s, a, c, i.throwing) else Transition(s, [])
    case ConnectFailed(a) =>
      if IsConnecting(s, a) then Reject(s, a, i.throwing) else Transition(s, [])
    case ChannelOk(a, ch) =>
      if IsAwaitingChannel(s, a) then OnChannel(s, a, ch, i.throwing) else Transition(s, [])
    case ChannelFailed(a) =>
      if IsAwaitingChannel(s, a) then Reject(s, a, i.throwing) else Transition(s, [])
  }

  /** The event reports a failure on a handle the manager listens on for it:
      'error' on a connection, 'error' or 'close' on a channel. */
  predicate Watched(s: State, e: Event)
  {
    || (e.ConnError? && e.conn in s.connListeners)
    || ((e.ChanError? || e.ChanClose?) && e.ch in s.chanListeners)
  }

  /** The listeners on the handles. Only handles the manager listens on
      react; in particular a connection's 'close' is never listened to. */
  function HandleStep(s: State, i: Input): (r: Transition)
    requires HandleEvent(i.event)
    ensures Watched(s, i.event) ==> r == OnError(s, i.throwing)
    ensures !Watched(s, i.event) ==> r == Transition(s, [])
    ensures Consistent(s) ==> Consistent(r.after)
    ensures r.after == s.(conn := r.after.conn, channel := r.after.channel,
                          reopenPending := r.after.reopenPending, timers := r.after.timers)
    ensures Count(r.out, SchedulesTimer) + s.timers == r.after.timers
    ensures Only(r.out, {Notified(ConnectionClosed), SchedulesTimer, Raises})
  {
    match i.event
    case ConnError(c) =>
      if c in s.connListeners then OnError(s, i.throwing) else Transition(s, [])
    case ConnClose(_) => Transition(s, [])
    case ChanError(ch) =>
      if ch in s.chanListeners then OnError(s, i.throwing) else Transition(s, [])
    case ChanClose(ch) =>
      if ch in s.chanListeners then OnError(s, i.throwing) else Transition(s, [])
  }

  /** `open()`, `reopen()`, `on(...)` and `drain(...)` called by the application. */
  function ApiStep(s: State, i: Input): (r: Transition)
    requires ApiEvent(i.event)
    ensures i.event.OpenCalled? ==> r == Open(s)
    ensures i.event.ReopenCalled? ==> r == Reopen(s)
    ensures i.event.Subscribe? ==>
              r == Transition(s.(subscribers := s.subscribers + [Subscriber(i.event.topic, App(i.event.id))]), [])
    ensures i.event.DrainCalled? ==> r == Drain(s, i.event.options)
    ensures Consistent(s) ==> Consistent(r.after)
    ensures r.after.autoReconnect == s.autoReconnect && r.after.endPoint == s.endPoint
    ensures r.after.conn == s.conn && r.after.channel == s.channel
    ensures r.after.attempts == s.attempts || r.after.attempts == s.attempts + [Connecting]
    ensures !i.event.Subscribe? && !i.event.DrainCalled? ==> r.after.subscribers == s.subscribers
    ensures Count(r.out, SchedulesTimer) + s.timers == r.after.timers
    ensures Only(r.out, {Connects, SchedulesTimer, Raises})
  {
    match i.event
    case OpenCalled => Open(s)
    case ReopenCalled => Reopen(s)
    case Subscribe(topic, id) =>
      Transition(s.(subscribers := s.subscribers + [Subscriber(topic, App(id))]), [])
    case DrainCalled(options) => Drain(s, options)
  }

  /** One step. */
  function Step(s: State, i: Input, parse: string -> Option<Json>): (r: Transition)
    ensures i.event.TimerFires? && s.timers == 0 ==> r == Transition(s, [])
    ensures i.event.TimerFires? && s.timers > 0 ==> r == FireTimer(s)
    ensures i.event.Deliver? ==> r == OnDeliver(s, i.event.ch, i.event.delivery, i.event.content, parse)
    ensures Consistent(s) ==> Consistent(r.after)
    ensures r.after.autoReconnect == s.autoReconnect && r.after.endPoint == s.endPoint
    ensures Count(r.out, SchedulesTimer) + s.timers
            == r.after.timers + (if i.event.TimerFires? && s.timers > 0 then 1 else 0)
  {
    if ChainEvent(i.event) then ChainStep(s, i)
    else if HandleEvent(i.event) then HandleStep(s, i)
    else if ApiEvent(i.event) then ApiStep(s, i)
    else if i.event.TimerFires? then
      (if s.timers > 0 then FireTimer(s) else Transition(s, []))
    else OnDeliver(s, i.event.ch, i.event.delivery, i.event.content, parse)
  }

  /** A sequence of steps; the trace is the concatenation of theirs. */
  function Run(s: State, inputs: seq<Input>, parse: string -> Option<Json>): (r: Transition)
    ensures Consistent(s) ==> Consistent(r.after)
    ensures r.after.autoReconnect == s.autoReconnect && r.after.endPoint == s.endPoint
    decreases |inputs|
  {
    if inputs == [] then Transition(s, [])
    else
      var first := Step(s, inputs[0], parse);
      var rest := Run(first.after, inputs[1..], parse);
      Transition(rest.after, first.out + rest.out)
  }
}

=== FILE: notifier.dfy ===
/** The event-emitter side of the wrapper: subscriptions kept in subscription
    order and synchronous dispatch that stops at the first subscriber that throws. */
module Notifier {
  import opened Amqp

  /** A subscriber: an application callback (identified by `id`, its effects
      are not modelled beyond whether it throws) or the `channel.opened`
      handler a `drain` registration installs. */
  datatype Handler = App(id: nat) | DrainHandler(topology: Topology)

  datatype Subscriber = Subscriber(topic: Topic, handler: Handler)

  /** The outcome of one synchronous `emit`: the handlers that ran to
      completion, and whether a handler threw. */
  datatype Dispatch = Dispatch(ran: seq<Handler>, threw: bool)

  /** The handlers subscribed to `topic`, in subscription order. */
  function Listeners(subs: seq<Subscriber>, topic: Topic): (hs: seq<Handler>)
    ensures |hs| <= |subs|
    ensures forall h | h in hs :: Subscriber(topic, h) in subs
    ensures forall sub | sub in subs && sub.topic == topic :: sub.handler in hs
  {
    if subs == [] then []
    else (if subs[0].topic == topic then [subs[0].handler] else []) + Listeners(subs[1..], topic)
  }

  /** A new subscriber is called after every earlier one. */
  lemma {:induction false} ListenersAppend(subs: seq<Subscriber>, sub: Subscriber, topic: Topic)
    ensures Listeners(subs + [sub], topic)
            == Listeners(subs, topic) + (if sub.topic == topic then [sub.handler] else [])
  {
    if subs == [] {
      assert subs + [sub] == [sub];
    } else {
      var first := if subs[0].topic == topic then [subs[0].handler] else [];
      var last := if sub.topic == topic then [sub.handler] else [];
      assert (subs + [sub])[0] == subs[0];
      assert (subs + [sub])[1..] == subs[1..] + [sub];
      calc {
        Listeners(subs + [sub], topic);
        first + Listeners(subs[1..] + [sub], topic);
        { ListenersAppend(subs[1..], sub, topic); }
        first + (Listeners(subs[1..], topic) + last);
        (first + Listeners(subs[1..], topic)) + last;
      }
    }
  }

  /** Whether `h` throws when called in a step where the application
      callbacks `throwing` throw. A drain handler never throws synchronously:
      the channel it uses was assigned just before the dispatch. */
  predicate Throws(h: Handler, throwing: set<nat>)
  {
    h.App? && h.id in throwing
  }

  /** Synchronous dispatch to `hs`: every handler runs in order until one throws. */
  function Emit(hs: seq<Handler>, throwing: set<nat>): (d: Dispatch)
    ensures d.ran <= hs
    ensures forall h | h in d.ran :: !Throws(h, throwing)
    ensures d.threw <==> |d.ran| < |hs|
    ensures d.threw ==> Throws(hs[|d.ran|], throwing)
  {
    if hs == [] then Dispatch([], false)
    else if Throws(hs[0], throwing) then Dispatch([], true)
    else
      var rest := Emit(hs[1..], throwing);
      assert [hs[0]] + hs[1..] == hs;
      Dispatch([hs[0]] + rest.ran, rest.threw)
  }

  /** Dispatch throws exactly when some subscriber throws; otherwise every subscriber ran. */
  lemma EmitThrowsIff(hs: seq<Handler>, throwing: set<nat>)
    ensures Emit(hs, throwing).threw <==> exists i | 0 <= i < |hs| :: Throws(hs[i], throwing)
    ensures !Emit(hs, throwing).threw ==> Emit(hs, throwing).ran == hs
  {
    var d := Emit(hs, throwing);
    if d.threw {
      assert Throws(hs[|d.ran|], throwing);
    } else {
      assert d.ran == hs;
      forall i | 0 <= i < |hs| ensures !Throws(hs[i], throwing) {
        assert hs[i] in d.ran;
      }
    }
  }

  /** The topologies of the drain handlers among `hs`, in order. */
  function Topologies(hs: seq<Handler>): (ts: seq<Topology>)
    ensures |ts| <= |hs|
    ensures forall t :: t in ts <==> DrainHandler(t) in hs
  {
    if hs == [] then []
    else (if hs[0].DrainHandler? then [hs[0].topology] else []) + Topologies(hs[1..])
  }

  lemma {:induction false} TopologiesAppend(a: seq<Handler>, b: seq<Handler>)
    ensures Topologies(a + b) == Topologies(a) + Topologies(b)
  {
    if a == [] {
      assert a + b == b;
    } else {
      assert (a + b)[0] == a[0];
      assert (a + b)[1..] == a[1..] + b;
      TopologiesAppend(a[1..], b);
    }
  }
}

=== FILE: properties.dfy ===
/** Properties of the connection manager over single steps and over
    arbitrary event sequences. */
module Properties {
  import opened Wrappers
  import opened Amqp
  import opened Notifier
  import opened ConnectionManager
  import ConsumeLoop

  /** What the first `then` handler can produce, and how it moves its attempt on. */
  lemma ConnectedShape(s: State, a: nat, c: ConnId, throwing: set<nat>)
    requires IsConnecting(s, a)
    ensures var r := OnConnected(s, a, c, throwing);
            && Only(r.out, {Notified(ConnectionOpened), CreatesChannel, Notified(ConnectionClosed), SchedulesTimer, Raises})
            && Count(r.out, Notified(ConnectionOpened)) == 1
            && Count(r.out, Notified(ChannelOpened)) == 0
            && (r.after.attempts == s.attempts[a := Settled] || r.after.attempts == s.attempts[a := AwaitingChannel(c)])
  {
    var r := OnConnected(s, a, c, throwing);
    var ks := {Notified(ConnectionOpened), CreatesChannel, Notified(ConnectionClosed), SchedulesTimer, Raises};
    assert r.out == [r.out[0]] + r.out[1..];
    CountCons(r.out[0], r.out[1..], Notified(ConnectionOpened));
    CountCons(r.out[0], r.out[1..], Notified(ChannelOpened));
    assert Only(r.out[1..], ks) by {
      if Emit(Listeners(s.subscribers, On(ConnectionOpened)), throwing).threw {
        var held := s.(conn := Some(c), connListeners := s.connListeners + {c}, attempts := s.attempts[a := Settled]);
        assert Only(OnError(held, throwing).out, {Notified(ConnectionClosed), SchedulesTimer, Raises});
      }
    }
    CountOutside(r.out[1..], ks - {Notified(ConnectionOpened)}, Notified(ConnectionOpened)) by {
      forall i | 0 <= i < |r.out[1..]| ensures KindOf(r.out[1..][i]) in ks - {Notified(ConnectionOpened)} {
        assert r.out[1..][i] == r.out[i + 1];
        assert KindOf(r.out[i + 1]) in ks;
      }
    }
    CountOutside(r.out[1..], ks, Notified(ChannelOpened));
  }

  /** The second handler's trace: `channel.opened`, the topology calls, then
      only what onError adds. */
  lemma ChannelParts(s: State, a: nat, ch: ChanId, throwing: set<nat>) returns (installs: seq<Out>, tail: seq<Out>)
    requires IsAwaitingChannel(s, a)
    ensures OnChannel(s, a, ch, throwing).out == ([Notify(ChannelOpened)] + installs) + tail
    ensures Only(installs, {AssertsExchange, AssertsQueue, BindsQueue, Consumes})
    ensures Only(tail, {Notified(ConnectionClosed), SchedulesTimer, Raises})
  {
    var r := OnChannel(s, a, ch, throwing);
    var d := Emit(Listeners(s.subscribers, On(ChannelOpened)), throwing);
    installs := ConsumeLoop.Installs(ch, Topologies(d.ran));
    tail := r.out[1 + |installs|..];
    assert r.out == r.out[..1 + |installs|] + tail;
    if !d.threw {
      assert tail == [];
    }
  }

  /** What the second `then` handler can produce: exactly one `channel.opened`. */
  lemma ChannelShape(s: State, a: nat, ch: ChanId, throwing: set<nat>)
    requires IsAwaitingChannel(s, a)
    ensures var r := OnChannel(s, a, ch, throwing);
            && Only(r.out, {Notified(ChannelOpened), AssertsExchange, AssertsQueue, BindsQueue, Consumes,
                            Notified(ConnectionClosed), SchedulesTimer, Raises})
            && Count(r.out, Notified(ChannelOpened)) == 1
            && Count(r.out, Notified(ConnectionOpened)) == 0
  {
    var closing := {Notified(ConnectionClosed), SchedulesTimer, Raises};
    var declares := {AssertsExchange, AssertsQueue, BindsQueue, Consumes};
    var installs, tail := ChannelParts(s, a, ch, throwing);
    var head := [Notify(ChannelOpened)] + installs;
    OnlyAppend([Notify(ChannelOpened)], installs, {Notified(ChannelOpened)}, declares);
    OnlyAppend(head, tail, {Notified(ChannelOpened)} + declares, closing);
    CountAppend(head, tail, Notified(ChannelOpened));
    CountCons(Notify(ChannelOpened), installs, Notified(ChannelOpened));
    CountOutside(installs, declares, Notified(ChannelOpened));
    CountOutside(tail, closing, Notified(ChannelOpened));
    CountAppend(head, tail, Notified(ConnectionOpened));
    CountCons(Notify(ChannelOpened), installs, Notified(ConnectionOpened));
    CountOutside(installs, declares, Notified(ConnectionOpened));
    CountOutside(tail, closing, Notified(ConnectionOpened));
  }

  /** The kinds of trace entry an outcome of an `open()` chain can produce:
      only a channel opening announces `channel.opened` and declares topology. */
  function ChainKinds(e: Event): set<Kind>
  {
    var closing := {Notified(ConnectionClosed), SchedulesTimer, Raises};
    if e.ChannelOk? then {Notified(ChannelOpened), AssertsExchange, AssertsQueue, BindsQueue, Consumes} + closing
    else {Notified(ConnectionOpened), CreatesChannel} + closing
  }

  lemma ChainOnly(s: State, i: Input)
    requires ChainEvent(i.event)
    ensures Only(ChainStep(s, i).out, ChainKinds(i.event))
  {
    var t := ChainStep(s, i);
    match i.event {
      case ConnectOk(a, c) =>
        if IsConnecting(s, a) { ConnectedShape(s, a, c, i.throwing); }
      case ConnectFailed(a) =>
      case ChannelOk(a, ch) =>
        if IsAwaitingChannel(s, a) { ChannelShape(s, a, ch, i.throwing); }
      case ChannelFailed(a) =>
    }
  }

  /** No step starts with a `message` notification, and within a step every
      notification comes right after its acknowledgment. */
  lemma StepAcksFirst(s: State, i: Input, parse: string -> Option<Json>)
    ensures var t := Step(s, i, parse);
            AcksFirst(t.out) && (t.out == [] || !t.out[0].Message?)
  {
    var t := Step(s, i, parse);
    if ChainEvent(i.event) {
      ChainOnly(s, i);
      SilentAcksFirst(t.out, ChainKinds(i.event));
    } else if HandleEvent(i.event) {
      SilentAcksFirst(t.out, {Notified(ConnectionClosed), SchedulesTimer, Raises});
    } else if ApiEvent(i.event) {
      SilentAcksFirst(t.out, {Connects, SchedulesTimer, Raises});
    } else if i.event.TimerFires? {
      SilentAcksFirst(t.out, {Connects});
    }
  }

  /** Across any run, every `message` notification comes right after an acknowledgment. */
  lemma {:induction false} RunAcksFirst(s: State, inputs: seq<Input>, parse: string -> Option<Json>)
    ensures AcksFirst(Run(s, inputs, parse).out)
    ensures Run(s, inputs, parse).out == [] || !Run(s, inputs, parse).out[0].Message?
    decreases |inputs|
  {
    if inputs != [] {
      var first := Step(s, inputs[0], parse);
      StepAcksFirst(s, inputs[0], parse);
      RunAcksFirst(first.after, inputs[1..], parse);
      var rest := Run(first.after, inputs[1..], parse);
      if rest.out != [] {
        if first.out == [] {
          assert first.out + rest.out == rest.out;
        } else {
          AcksFirstAppend(first.out, rest.out);
          assert (first.out + rest.out)[0] == first.out[0];
        }
      } else {
        assert first.out + rest.out == first.out;
      }
    }
  }

  // ---------------------------------------------------------------------
  // The reconnect timer

  /** One step schedules a timer exactly when the timer count goes up, and
      the count goes down only when a pending timer fires. */
  lemma {:induction false} TimersWithoutFiring(s: State, inputs: seq<Input>, parse: string -> Option<Json>)
    requires Consistent(s)
    requires forall j | 0 <= j < |inputs| :: !inputs[j].event.TimerFires?
    ensures var r := Run(s, inputs, parse);
            && Count(r.out, SchedulesTimer) + s.timers == r.after.timers
            && r.after.timers <= 1
            && (s.reopenPending ==> Count(r.out, SchedulesTimer) == 0)
    decreases |inputs|
  {
    if inputs != [] {
      var first := Step(s, inputs[0], parse);
      TimersWithoutFiring(first.after, inputs[1..], parse);
      CountAppend(first.out, Run(first.after, inputs[1..], parse).out, SchedulesTimer);
    }
  }

  /** With auto-reconnect off, no run ever schedules a timer. */
  lemma {:induction false} NoReconnectWhenDisabled(s: State, inputs: seq<Input>, parse: string -> Option<Json>)
    requires Consistent(s) && !s.autoReconnect
    ensures Count(Run(s, inputs, parse).out, SchedulesTimer) == 0
    ensures Run(s, inputs, parse).after.timers == 0
    decreases |inputs|
  {
    if inputs != [] {
      var first := Step(s, inputs[0], parse);
      NoReconnectWhenDisabled(first.after, inputs[1..], parse);
      CountAppend(first.out, Run(first.after, inputs[1..], parse).out, SchedulesTimer);
    }
  }

  // ---------------------------------------------------------------------
  // connection.opened before channel.opened

  /** The number of attempts waiting for their channel. */
  function Awaiting(st: seq<Stage>): nat
  {
    if st == [] then 0 else (if st[0].AwaitingChannel? then 1 else 0) + Awaiting(st[1..])
  }

  lemma {:induction false} AwaitingUpdate(st: seq<Stage>, a: nat, x: Stage)
    requires a < |st|
    ensures Awaiting(st[a := x]) + (if st[a].AwaitingChannel? then 1 else 0)
            == Awaiting(st) + (if x.AwaitingChannel? then 1 else 0)
  {
    if a == 0 {
      assert st[a := x][1..] == st[1..];
    } else {
      assert st[a := x][1..] == st[1..][a - 1 := x];
      AwaitingUpdate(st[1..], a - 1, x);
    }
  }

  lemma {:induction false} AwaitingAppend(st: seq<Stage>)
    ensures Awaiting(st + [Connecting]) == Awaiting(st)
  {
    if st == [] {
      assert (st + [Connecting])[1..] == [];
    } else {
      assert (st + [Connecting])[1..] == st[1..] + [Connecting];
      AwaitingAppend(st[1..]);
    }
  }

  /** A step announces `channel.opened` only by settling an attempt that
      already announced `connection.opened`. */
  predicate Ordered(s: State, t: Transition)
  {
    Count(t.out, Notified(ChannelOpened)) + Awaiting(t.after.attempts)
    <= Count(t.out, Notified(ConnectionOpened)) + Awaiting(s.attempts)
  }

  /** Every outcome of an `open()` chain keeps the announcements in order. */
  lemma ChainOrdered(s: State, i: Input)
    requires ChainEvent(i.event)
    ensures Ordered(s, ChainStep(s, i))
  {
    var t := ChainStep(s, i);
    var closing := {Notified(ConnectionClosed), SchedulesTimer, Raises};
    match i.event {
      case ConnectOk(a, c) =>
        if IsConnecting(s, a) {
          ConnectedShape(s, a, c, i.throwing);
          AwaitingUpdate(s.attempts, a, Settled);
          AwaitingUpdate(s.attempts, a, AwaitingChannel(c));
        }
      case ConnectFailed(a) =>
        if IsConnecting(s, a) {
          AwaitingUpdate(s.attempts, a, Settled);
          CountOutside(t.out, closing, Notified(ChannelOpened));
        }
      case ChannelOk(a, ch) =>
        if IsAwaitingChannel(s, a) {
          ChannelShape(s, a, ch, i.throwing);
          AwaitingUpdate(s.attempts, a, Settled);
        }
      case ChannelFailed(a) =>
        if IsAwaitingChannel(s, a) {
          AwaitingUpdate(s.attempts, a, Settled);
          CountOutside(t.out, closing, Notified(ChannelOpened));
        }
    }
  }

  /** Every step keeps the announcements in order. */
  lemma StepOpenedOrder(s: State, i: Input, parse: string -> Option<Json>)
    ensures Ordered(s, Step(s, i, parse))
  {
    var t := Step(s, i, parse);
    if ChainEvent(i.event) {
      ChainOrdered(s, i);
    } else if HandleEvent(i.event) {
      CountOutside(t.out, {Notified(ConnectionClosed), SchedulesTimer, Raises}, Notified(ChannelOpened));
    } else if ApiEvent(i.event) || i.event.TimerFires? {
      AwaitingAppend(s.attempts);
      CountOutside(t.out, {Connects, SchedulesTimer, Raises}, Notified(ChannelOpened));
    } else if i.event.ch in s.consuming {
      CountOutside(t.out, {Acks, Delivered, Raises}, Notified(ChannelOpened));
    }
  }

  /** Across any run, `channel.opened` is never announced more often than
      `connection.opened` (counting the attempts already waiting for a channel). */
  lemma {:induction false} ChannelOpenedAfterConnectionOpened(s: State, inputs: seq<Input>, parse: string -> Option<Json>)
    ensures var r := Run(s, inputs, parse);
            Count(r.out, Notified(ChannelOpened)) + Awaiting(r.after.attempts)
            <= Count(r.out, Notified(ConnectionOpened)) + Awaiting(s.attempts)
    decreases |inputs|
  {
    if inputs != [] {
      var first := Step(s, inputs[0], parse);
      var rest := Run(first.after, inputs[1..], parse);
      StepOpenedOrder(s, inputs[0], parse);
      ChannelOpenedAfterConnectionOpened(first.after, inputs[1..], parse);
      CountAppend(first.out, rest.out, Notified(ChannelOpened));
      CountAppend(first.out, rest.out, Notified(ConnectionOpened));
    }
  }

  // ---------------------------------------------------------------------
  // Topology installed once per channel

  /** The kinds of trace entry that neither declare topology nor announce `channel.opened`. */
  const QuietKinds: set<Kind> := {Notified(ConnectionOpened), Notified(ConnectionClosed), CreatesChannel,
                                  Connects, Acks, Delivered, Raises, SchedulesTimer}

  lemma NotQuiet(k: Kind)
    requires ConsumeLoop.Declares(k) || k == Notified(ChannelOpened)
    ensures k !in QuietKinds
  {
  }

  /** No entry declares topology or announces `channel.opened`. */
  predicate Quiet(out: seq<Out>)
  {
    Only(out, QuietKinds)
  }

  /** The topology drain registrations of `s` install on a new channel. */
  function DrainTopologies(s: State): seq<Topology>
  {
    Topologies(Listeners(s.subscribers, On(ChannelOpened)))
  }

  /** How many drain registrations a `channel.opened` dispatch reaches. */
  function Drains(s: State): nat
  {
    |DrainTopologies(s)|
  }

  /** Without throwing subscribers, a channel opening installs every
      registered topology on the new channel, once. */
  lemma ChannelInstallsAll(s: State, a: nat, ch: ChanId)
    requires IsAwaitingChannel(s, a)
    ensures var t := OnChannel(s, a, ch, {});
            && DrainTopologies(t.after) == DrainTopologies(s)
            && t.out == [Notify(ChannelOpened)] + ConsumeLoop.Installs(ch, DrainTopologies(s))
  {
    EmitThrowsIff(Listeners(s.subscribers, On(ChannelOpened)), {});
  }

  /** What a step without new drain registrations does to the topologies. */
  predicate InstallsOrQuiet(s: State, i: Input, t: Transition)
  {
    && DrainTopologies(t.after) == DrainTopologies(s)
    && if i.event.ChannelOk? && IsAwaitingChannel(s, i.event.attempt)
       then t.out == [Notify(ChannelOpened)] + ConsumeLoop.Installs(i.event.ch, DrainTopologies(s))
       else Quiet(t.out)
  }

  /** Subscribing an application callback leaves the drain registrations alone. */
  lemma SubscribeKeepsTopologies(s: State, topic: Topic, id: nat)
    ensures DrainTopologies(s.(subscribers := s.subscribers + [Subscriber(topic, App(id))])) == DrainTopologies(s)
  {
    var sub := Subscriber(topic, App(id));
    ListenersAppend(s.subscribers, sub, On(ChannelOpened));
    var hs := Listeners(s.subscribers, On(ChannelOpened));
    TopologiesAppend(hs, if sub.topic == On(ChannelOpened) then [sub.handler] else []);
    assert Topologies([App(id)]) == [];
  }

  lemma ChainInstalls(s: State, i: Input)
    requires ChainEvent(i.event) && i.throwing == {}
    ensures InstallsOrQuiet(s, i, ChainStep(s, i))
  {
    if i.event.ChannelOk? {
      if IsAwaitingChannel(s, i.event.attempt) {
        ChannelInstallsAll(s, i.event.attempt, i.event.ch);
      }
    } else {
      ChainOnly(s, i);
      OnlyMono(ChainStep(s, i).out, ChainKinds(i.event), QuietKinds);
    }
  }

  /** Events outside the `open()` chains never declare topology. */
  lemma OtherQuiet(s: State, i: Input, parse: string -> Option<Json>)
    requires !ChainEvent(i.event)
    ensures Quiet(Step(s, i, parse).out)
  {
    var t := Step(s, i, parse);
    if HandleEvent(i.event) {
      OnlyMono(t.out, {Notified(ConnectionClosed), SchedulesTimer, Raises}, QuietKinds);
    } else if ApiEvent(i.event) || i.event.TimerFires? {
      OnlyMono(t.out, {Connects, SchedulesTimer, Raises}, QuietKinds);
    } else if i.event.ch in s.consuming {
      OnlyMono(t.out, {Acks, Delivered, Raises}, QuietKinds);
    }
  }

  /** Without new drain registrations and without throwing subscribers, a
      step either opens a channel and installs every registered topology on
      it, once, or declares nothing at all. */
  lemma StepInstalls(s: State, i: Input, parse: string -> Option<Json>)
    requires i.throwing == {} && !i.event.DrainCalled?
    ensures InstallsOrQuiet(s, i, Step(s, i, parse))
  {
    if ChainEvent(i.event) {
      ChainInstalls(s, i);
    } else {
      OtherQuiet(s, i, parse);
      if i.event.Subscribe? {
        SubscribeKeepsTopologies(s, i.event.topic, i.event.id);
      }
    }
  }

  /** Per step: each declare call of kind `k` once per drain registration
      for every `channel.opened` announced. */
  lemma StepTopology(s: State, i: Input, parse: string -> Option<Json>, k: Kind)
    requires ConsumeLoop.Declares(k)
    requires i.throwing == {} && !i.event.DrainCalled?
    ensures var t := Step(s, i, parse);
            && Drains(t.after) == Drains(s)
            && Count(t.out, Notified(ChannelOpened)) <= 1
            && Count(t.out, k) == if Count(t.out, Notified(ChannelOpened)) == 0 then 0 else Drains(s)
  {
    var t := Step(s, i, parse);
    StepInstalls(s, i, parse);
    if i.event.ChannelOk? && IsAwaitingChannel(s, i.event.attempt) {
      var installs := ConsumeLoop.Installs(i.event.ch, DrainTopologies(s));
      CountCons(Notify(ChannelOpened), installs, k);
      CountCons(Notify(ChannelOpened), installs, Notified(ChannelOpened));
    } else {
      NotQuiet(k);
      NotQuiet(Notified(ChannelOpened));
      CountOutside(t.out, QuietKinds, k);
      CountOutside(t.out, QuietKinds, Notified(ChannelOpened));
    }
  }

  /** The arithmetic step of the induction below. */
  lemma Combine(d: nat, c1: nat, c2: nat, c: nat, k1: nat, k2: nat)
    requires c1 <= 1 && c == c1 + c2 && k1 == (if c1 == 0 then 0 else d) && k2 == d * c2
    ensures k1 + k2 == d * c
  {
    if c1 != 0 {
      assert c == c2 + 1;
      assert d * (c2 + 1) == d * c2 + d;
    }
  }

  /** After any number of reconnects, each drain registration declares its
      exchange, declares its queue, binds and consumes exactly once per
      successful channel establishment. */
  lemma {:induction false} TopologyOncePerChannel(s: State, inputs: seq<Input>, parse: string -> Option<Json>, k: Kind)
    requires ConsumeLoop.Declares(k)
    requires forall j | 0 <= j < |inputs| :: inputs[j].throwing == {} && !inputs[j].event.DrainCalled?
    ensures var r := Run(s, inputs, parse);
            Count(r.out, k) == Drains(s) * Count(r.out, Notified(ChannelOpened))
    decreases |inputs|
  {
    if inputs != [] {
      var first := Step(s, inputs[0], parse);
      var rest := Run(first.after, inputs[1..], parse);
      var d := Drains(s);
      var c1 := Count(first.out, Notified(ChannelOpened));
      var c2 := Count(rest.out, Notified(ChannelOpened));
      assert c1 <= 1 && Count(first.out, k) == (if c1 == 0 then 0 else d) && Drains(first.after) == d by {
        StepTopology(s, inputs[0], parse, k);
      }
      assert Count(rest.out, k) == d * c2 by {
        assert forall j | 0 <= j < |inputs[1..]| :: inputs[1..][j] == inputs[j + 1];
        TopologyOncePerChannel(first.after, inputs[1..], parse, k);
      }
      var out := Run(s, inputs, parse).out;
      assert out == first.out + rest.out;
      CountAppend(first.out, rest.out, k);
      CountAppend(first.out, rest.out, Notified(ChannelOpened));
      Combine(d, c1, c2, Count(out, Notified(ChannelOpened)), Count(first.out, k), Count(rest.out, k));
    }
  }

  // ---------------------------------------------------------------------
  // A channel needs its connection

  predicate ChannelNeedsConn(s: State)
  {
    s.channel.Some? ==> s.conn.Some?
  }

  /** A channel opens for an attempt while the manager holds no connection
      (because onError ran after that attempt connected). */
  predicate Stale(s: State, i: Input)
  {
    i.event.ChannelOk? && IsAwaitingChannel(s, i.event.attempt) && s.conn.None?
  }

  /** Every step except a stale channel opening keeps "channel present
      implies connection present". */
  lemma StepChannelNeedsConn(s: State, i: Input, parse: string -> Option<Json>)
    requires ChannelNeedsConn(s) && !Stale(s, i)
    ensures ChannelNeedsConn(Step(s, i, parse).after)
  {
  }

  /** A channel opening breaks the invariant exactly when the manager holds
      no connection and no `channel.opened` subscriber throws. */
  lemma StaleChannelIff(s: State, a: nat, ch: ChanId, throwing: set<nat>)
    requires IsAwaitingChannel(s, a)
    ensures ChannelNeedsConn(OnChannel(s, a, ch, throwing).after)
            <==> s.conn.Some? || Emit(Listeners(s.subscribers, On(ChannelOpened)), throwing).threw
  {
  }

  /** No step of the run is a stale channel opening. */
  predicate NeverStale(s: State, inputs: seq<Input>, parse: string -> Option<Json>)
    decreases |inputs|
  {
    inputs == [] || (!Stale(s, inputs[0]) && NeverStale(Step(s, inputs[0], parse).after, inputs[1..], parse))
  }

  lemma {:induction false} ChannelImpliesConnection(s: State, inputs: seq<Input>, parse: string -> Option<Json>)
    requires ChannelNeedsConn(s) && NeverStale(s, inputs, parse)
    ensures ChannelNeedsConn(Run(s, inputs, parse).after)
    decreases |inputs|
  {
    if inputs != [] {
      StepChannelNeedsConn(s, inputs[0], parse);
      ChannelImpliesConnection(Step(s, inputs[0], parse).after, inputs[1..], parse);
    }
  }

  // Listeners and consumers

  /** Every listener and consumer registered in `s` is still registered in `t`. */
  predicate Grows(s: State, t: State)
  {
    && s.connListeners <= t.connListeners
    && s.chanListeners <= t.chanListeners
    && s.consuming <= t.consuming
  }

  /** No step removes a listener or a consumer: a handle the manager has
      dropped keeps reporting its failures to onError. */
  lemma StepGrows(s: State, i: Input, parse: string -> Option<Json>)
    ensures Grows(s, Step(s, i, parse).after)
  {
    if ChainEvent(i.event) {
      ChainGrows(s, i);
    }
  }

  lemma ChainGrows(s: State, i: Input)
    requires ChainEvent(i.event)
    ensures Grows(s, ChainStep(s, i).after)
  {
    match i.event {
      case ConnectOk(a, c) =>
      case ConnectFailed(a) =>
      case ChannelOk(a, ch) =>
      case ChannelFailed(a) =>
    }
  }

  lemma {:induction false} ListenersGrow(s: State, inputs: seq<Input>, parse: string -> Option<Json>)
    ensures Grows(s, Run(s, inputs, parse).after)
    decreases |inputs|
  {
    if inputs != [] {
      StepGrows(s, inputs[0], parse);
      ListenersGrow(Step(s, inputs[0], parse).after, inputs[1..], parse);
    }
  }

  // Announced messages

  /** A step announces a `message` only for a delivery on a consuming
      channel while a channel is held, and only when the body parses. */
  lemma StepMessages(s: State, i: Input, parse: string -> Option<Json>)
    ensures Messages(Step(s, i, parse).out)
            == if i.event.Deliver? && i.event.ch in s.consuming && s.channel.Some?
                  && parse(i.event.content).Some?
               then [parse(i.event.content).value] else []
  {
    var t := Step(s, i, parse);
    if ChainEvent(i.event) {
      ChainOnly(s, i);
      MessagesOutside(t.out, ChainKinds(i.event));
    } else if HandleEvent(i.event) {
      MessagesOutside(t.out, {Notified(ConnectionClosed), SchedulesTimer, Raises});
    } else if ApiEvent(i.event) {
      MessagesOutside(t.out, {Connects, SchedulesTimer, Raises});
    } else if i.event.TimerFires? {
      MessagesOutside(t.out, {Connects});
    }
  }

  /** Every `message` announced over a run is the parsed body of a delivery in it. */
  lemma {:induction false} RunMessages(s: State, inputs: seq<Input>, parse: string -> Option<Json>)
    ensures forall v | v in Messages(Run(s, inputs, parse).out) ::
              exists j | 0 <= j < |inputs| :: inputs[j].event.Deliver? && parse(inputs[j].event.content) == Some(v)
    decreases |inputs|
  {
    if inputs != [] {
      var first := Step(s, inputs[0], parse);
      var rest := Run(first.after, inputs[1..], parse);
      StepMessages(s, inputs[0], parse);
      RunMessages(first.after, inputs[1..], parse);
      MessagesAppend(first.out, rest.out);
      forall v | v in Messages(first.out + rest.out)
        ensures exists j | 0 <= j < |inputs| :: inputs[j].event.Deliver? && parse(inputs[j].event.content) == Some(v)
      {
        if v in Messages(first.out) {
          assert inputs[0].event.Deliver? && parse(inputs[0].event.content) == Some(v);
        } else {
          var j :| 0 <= j < |inputs[1..]| && inputs[1..][j].event.Deliver? && parse(inputs[1..][j].event.content) == Some(v);
          assert inputs[j + 1] == inputs[1..][j];
        }
      }
    }
  }
}

=== FILE: scenarios.dfy ===
/** Short event sequences with fully determined traces: the staged `open`,
    its failure paths, the debounced reconnect, and what concurrent `open()`
    chains and late deliveries do. Each scenario is a chain of steps, which
    is what `Run` computes over the same events. */
module Scenarios {
  import opened Wrappers
  import opened Amqp
  import opened Notifier
  import opened ConnectionManager
  import ConsumeLoop
  import Properties

  /** An event during which no application callback throws. */
  function Quietly(e: Event): Input
  {
    Input(e, {})
  }

  /** What a call to `reopen` adds to the trace after onError cleared the handles. */
  function Rescheduled(s: State): seq<Out>
  {
    if s.autoReconnect && !s.reopenPending then [Call(SetTimeout(ReconnectDelayMs))] else []
  }

  /** onError with no throwing `connection.closed` subscriber. */
  lemma OnErrorQuietly(s: State)
    ensures var r := OnError(s, {});
            && r.out == [Notify(ConnectionClosed)] + Rescheduled(s)
            && r.after.reopenPending == (s.reopenPending || s.autoReconnect)
  {
    EmitThrowsIff(Listeners(s.subscribers, On(ConnectionClosed)), {});
  }

  /** The first `then` handler with no throwing `connection.opened` subscriber. */
  lemma ConnectedQuietly(s: State, a: nat, c: ConnId)
    requires IsConnecting(s, a)
    ensures OnConnected(s, a, c, {})
            == Transition(s.(conn := Some(c), connListeners := s.connListeners + {c},
                             attempts := s.attempts[a := AwaitingChannel(c)]),
                          [Notify(ConnectionOpened), Call(CreateChannel(c))])
  {
    EmitThrowsIff(Listeners(s.subscribers, On(ConnectionOpened)), {});
  }

  /** The second `then` handler with no throwing `channel.opened` subscriber. */
  lemma ChannelOpenedQuietly(s: State, a: nat, ch: ChanId)
    requires IsAwaitingChannel(s, a)
    ensures var t := OnChannel(s, a, ch, {});
            && t.out == [Notify(ChannelOpened)] + ConsumeLoop.Installs(ch, Properties.DrainTopologies(s))
            && t.after.conn == s.conn && t.after.channel == Some(ch)
            && (ch in t.after.consuming <==> ch in s.consuming || Properties.DrainTopologies(s) != [])
  {
    Properties.ChannelInstallsAll(s, a, ch);
    EmitThrowsIff(Listeners(s.subscribers, On(ChannelOpened)), {});
  }

  /** The final rejection handler with no throwing `connection.closed` subscriber. */
  lemma RejectedQuietly(s: State, a: nat)
    requires a < |s.attempts| && !s.attempts[a].Settled?
    ensures var r := Reject(s, a, {});
            && r.out == [Notify(ConnectionClosed)] + Rescheduled(s)
            && r.after.conn.None? && r.after.channel.None?
            && r.after.reopenPending == (s.reopenPending || s.autoReconnect)
            && r.after.attempts == s.attempts[a := Settled]
  {
    OnErrorQuietly(s.(attempts := s.attempts[a := Settled]));
  }

  /** `open()` called by the application starts an attempt. */
  lemma OpenStep(s: State, parse: string -> Option<Json>)
    ensures Step(s, Quietly(OpenCalled), parse) == Open(s)
  {
  }

  /** A connection for a connecting attempt runs the first `then` handler. */
  lemma ConnectOkStep(s: State, a: nat, c: ConnId, parse: string -> Option<Json>)
    requires IsConnecting(s, a)
    ensures Step(s, Quietly(ConnectOk(a, c)), parse) == OnConnected(s, a, c, {})
  {
  }

  /** A refused connection for a connecting attempt runs the rejection handler. */
  lemma ConnectFailedStep(s: State, a: nat, parse: string -> Option<Json>)
    requires IsConnecting(s, a)
    ensures Step(s, Quietly(ConnectFailed(a)), parse) == Reject(s, a, {})
  {
  }

  /** A channel for an attempt awaiting one runs the second `then` handler. */
  lemma ChannelOkStep(s: State, a: nat, ch: ChanId, parse: string -> Option<Json>)
    requires IsAwaitingChannel(s, a)
    ensures Step(s, Quietly(ChannelOk(a, ch)), parse) == OnChannel(s, a, ch, {})
  {
  }

  /** A refused channel for an attempt awaiting one runs the rejection handler. */
  lemma ChannelFailedStep(s: State, a: nat, parse: string -> Option<Json>)
    requires IsAwaitingChannel(s, a)
    ensures Step(s, Quietly(ChannelFailed(a)), parse) == Reject(s, a, {})
  {
  }

  /** `drain(options)` called by the application. */
  lemma DrainStep(s: State, options: Option<DrainOptions>, parse: string -> Option<Json>)
    ensures Step(s, Quietly(DrainCalled(options)), parse) == Drain(s, options)
  {
  }

  /** A pending timer firing calls `open()`. */
  lemma TimerStep(s: State, parse: string -> Option<Json>)
    requires s.timers > 0
    ensures Step(s, Quietly(TimerFires), parse) == FireTimer(s)
  {
  }

  /** An 'error' or 'close' on a channel the manager listens on runs onError. */
  lemma ChannelFailureStep(s: State, ch: ChanId, close: bool, parse: string -> Option<Json>)
    requires ch in s.chanListeners
    ensures Step(s, Quietly(if close then ChanClose(ch) else ChanError(ch)), parse) == OnError(s, {})
  {
    assert Watched(s, if close then ChanClose(ch) else ChanError(ch));
  }

  /** A delivery on a consuming channel while the manager holds no channel
      throws in the callback's ack and changes nothing. */
  lemma DeliveryWithoutChannel(s: State, ch: ChanId, delivery: nat, content: string,
                               parse: string -> Option<Json>)
    requires ch in s.consuming && s.channel.None?
    ensures Step(s, Quietly(Deliver(ch, delivery, content)), parse) == Transition(s, [Raised(NullChannel)])
  {
  }

  /** A delivery on the channel the manager holds: the callback acknowledges
      it on that channel and announces the parsed body as `message`. */
  lemma DeliveryOnCurrentChannel(s: State, ch: ChanId, delivery: nat, content: string, v: Json,
                                 parse: string -> Option<Json>)
    requires s.channel == Some(ch) && ch in s.consuming && parse(content) == Some(v)
    ensures Step(s, Quietly(Deliver(ch, delivery, content)), parse)
            == Transition(s, [Call(Ack(ch, delivery)), Message(v)])
  {
  }

  /** A successful `open()`: `connection.opened`, the channel request,
      `channel.opened`, then one topology installation per drain registration;
      both handles are held at the end. */
  lemma OpenSucceeds(s: State, c: ConnId, ch: ChanId, parse: string -> Option<Json>)
    ensures var n := |s.attempts|;
            var t1 := Step(s, Quietly(OpenCalled), parse);
            var t2 := Step(t1.after, Quietly(ConnectOk(n, c)), parse);
            var t3 := Step(t2.after, Quietly(ChannelOk(n, ch)), parse);
            && t1.out + t2.out == [Call(Connect(s.endPoint)), Notify(ConnectionOpened), Call(CreateChannel(c))]
            && t3.out == [Notify(ChannelOpened)] + ConsumeLoop.Installs(ch, Properties.DrainTopologies(s))
            && t3.after.conn == Some(c) && t3.after.channel == Some(ch)
  {
    var n := |s.attempts|;
    var s1 := Open(s).after;
    OpenStep(s, parse);
    ConnectOkStep(s1, n, c, parse);
    ConnectedQuietly(s1, n, c);
    var s2 := OnConnected(s1, n, c, {}).after;
    ChannelOkStep(s2, n, ch, parse);
    ChannelOpenedQuietly(s2, n, ch);
    assert Properties.DrainTopologies(s2) == Properties.DrainTopologies(s) by {
      assert s2.subscribers == s.subscribers;
    }
  }

  /** `amqp.connect` fails: onError announces `connection.closed` and reopens. */
  lemma OpenConnectRefused(s: State, parse: string -> Option<Json>)
    ensures var t1 := Step(s, Quietly(OpenCalled), parse);
            var t2 := Step(t1.after, Quietly(ConnectFailed(|s.attempts|)), parse);
            && t1.out + t2.out == [Call(Connect(s.endPoint)), Notify(ConnectionClosed)] + Rescheduled(s)
            && t2.after.conn.None? && t2.after.channel.None?
            && t2.after.reopenPending == (s.reopenPending || s.autoReconnect)
  {
    OpenStep(s, parse);
    ConnectFailedStep(Open(s).after, |s.attempts|, parse);
    RejectedQuietly(Open(s).after, |s.attempts|);
  }

  /** `createChannel` fails after the connection came up. */
  lemma OpenChannelRefused(s: State, c: ConnId, parse: string -> Option<Json>)
    ensures var n := |s.attempts|;
            var t1 := Step(s, Quietly(OpenCalled), parse);
            var t2 := Step(t1.after, Quietly(ConnectOk(n, c)), parse);
            var t3 := Step(t2.after, Quietly(ChannelFailed(n)), parse);
            && t1.out + t2.out == [Call(Connect(s.endPoint)), Notify(ConnectionOpened), Call(CreateChannel(c))]
            && t3.out == [Notify(ConnectionClosed)] + Rescheduled(s)
            && t3.after.conn.None? && t3.after.channel.None?
  {
    var n := |s.attempts|;
    var s1 := Open(s).after;
    OpenStep(s, parse);
    ConnectOkStep(s1, n, c, parse);
    ConnectedQuietly(s1, n, c);
    var s2 := OnConnected(s1, n, c, {}).after;
    ChannelFailedStep(s2, n, parse);
    RejectedQuietly(s2, n);
    assert Rescheduled(s2) == Rescheduled(s);
  }

  /** A channel reports 'error' and then 'close': onError runs twice and
      announces `connection.closed` twice, but at most one timer is scheduled. */
  lemma ChannelErrorThenClose(s: State, ch: ChanId, parse: string -> Option<Json>)
    requires ch in s.chanListeners
    ensures var t1 := Step(s, Quietly(ChanError(ch)), parse);
            var t2 := Step(t1.after, Quietly(ChanClose(ch)), parse);
            && t1.out + t2.out == [Notify(ConnectionClosed)] + Rescheduled(s) + [Notify(ConnectionClosed)]
            && t2.after.conn.None? && t2.after.channel.None?
            && t2.after.reopenPending == (s.reopenPending || s.autoReconnect)
  {
    var t1 := OnError(s, {});
    ChannelFailureStep(s, ch, false, parse);
    ChannelFailureStep(t1.after, ch, true, parse);
    OnErrorQuietly(s);
    OnErrorQuietly(t1.after);
    assert Rescheduled(t1.after) == [];
  }

  /** The reconnect timer clears the pending flag before calling `open()`:
      when that attempt fails too, a new timer is scheduled. */
  lemma TimerRetries(s: State, parse: string -> Option<Json>)
    requires Consistent(s) && s.reopenPending
    ensures var t1 := Step(s, Quietly(TimerFires), parse);
            var t2 := Step(t1.after, Quietly(ConnectFailed(|s.attempts|)), parse);
            && t1.out + t2.out == [Call(Connect(s.endPoint)), Notify(ConnectionClosed), Call(SetTimeout(ReconnectDelayMs))]
            && t2.after.reopenPending && t2.after.timers == 1
  {
    TimerStep(s, parse);
    ConnectFailedStep(FireTimer(s).after, |s.attempts|, parse);
    RejectedQuietly(FireTimer(s).after, |s.attempts|);
  }

  /** Two `open()` chains in flight: the first connects, the second fails and
      onError drops the connection, then the first one's channel arrives. The
      manager ends up holding a channel without a connection. */
  lemma ConcurrentOpensLoseConnection(s: State, c: ConnId, ch: ChanId, parse: string -> Option<Json>)
    ensures var n := |s.attempts|;
            var t1 := Step(s, Quietly(OpenCalled), parse);
            var t2 := Step(t1.after, Quietly(OpenCalled), parse);
            var t3 := Step(t2.after, Quietly(ConnectOk(n, c)), parse);
            var t4 := Step(t3.after, Quietly(ConnectFailed(n + 1)), parse);
            var t5 := Step(t4.after, Quietly(ChannelOk(n, ch)), parse);
            t5.after.channel == Some(ch) && t5.after.conn.None?
  {
    var n := |s.attempts|;
    var s1 := Open(s).after;
    var s2 := Open(s1).after;
    OpenStep(s, parse);
    OpenStep(s1, parse);
    assert s2.attempts == s.attempts + [Connecting, Connecting] by {
      assert s1.attempts == s.attempts + [Connecting];
    }
    ConnectOkStep(s2, n, c, parse);
    ConnectedQuietly(s2, n, c);
    var s3 := OnConnected(s2, n, c, {}).after;
    assert s3.attempts == s2.attempts[n := AwaitingChannel(c)];
    ConnectFailedStep(s3, n + 1, parse);
    RejectedQuietly(s3, n + 1);
    var s4 := Reject(s3, n + 1, {}).after;
    assert s4.conn.None? && s4.attempts[n] == AwaitingChannel(c);
    ChannelOkStep(s4, n, ch, parse);
    ChannelOpenedQuietly(s4, n, ch);
  }

  /** A message delivered on a consuming channel after an 'error' on it: the
      callback acknowledges on the manager's current channel, which onError
      has just cleared, so it throws and no `message` is announced. */
  lemma DeliveryAfterChannelError(s: State, ch: ChanId, delivery: nat, content: string,
                                  parse: string -> Option<Json>)
    requires Consistent(s) && ch in s.consuming
    ensures var t1 := Step(s, Quietly(ChanError(ch)), parse);
            var t2 := Step(t1.after, Quietly(Deliver(ch, delivery, content)), parse);
            && t1.out + t2.out == [Notify(ConnectionClosed)] + Rescheduled(s) + [Raised(NullChannel)]
            && Messages(t1.out + t2.out) == []
  {
    var t1 := OnError(s, {});
    ChannelFailureStep(s, ch, false, parse);
    OnErrorQuietly(s);
    DeliveryWithoutChannel(t1.after, ch, delivery, content, parse);
    var closing := {Notified(ConnectionClosed), SchedulesTimer, Raises};
    OnlyAppend(t1.out, [Raised(NullChannel)], closing, {Raises});
    MessagesOutside(t1.out + [Raised(NullChannel)], closing + {Raises});
  }

  /** A drain registration's topology comes after the topologies registered before it. */
  lemma DrainRegisters(subs: seq<Subscriber>, topology: Topology)
    ensures Topologies(Listeners(subs + [Subscriber(On(ChannelOpened), DrainHandler(topology))], On(ChannelOpened)))
            == Topologies(Listeners(subs, On(ChannelOpened))) + [topology]
  {
    ListenersAppend(subs, Subscriber(On(ChannelOpened), DrainHandler(topology)), On(ChannelOpened));
    TopologiesAppend(Listeners(subs, On(ChannelOpened)), [DrainHandler(topology)]);
  }

  /** `drain` with valid options and then its connection: the connection is
      up, the attempt awaits its channel, and the new topology is the last one
      registered. */
  lemma DrainConnects(s: State, options: Option<DrainOptions>, c: ConnId, parse: string -> Option<Json>)
    requires ConsumeLoop.Validate(options).Success?
    ensures var t1 := Step(s, Quietly(DrainCalled(options)), parse);
            var t2 := Step(t1.after, Quietly(ConnectOk(|s.attempts|, c)), parse);
            && t1.out + t2.out == [Call(Connect(s.endPoint)), Notify(ConnectionOpened), Call(CreateChannel(c))]
            && IsAwaitingChannel(t2.after, |s.attempts|)
            && Properties.DrainTopologies(t2.after)
               == Properties.DrainTopologies(s) + [ConsumeLoop.Validate(options).value]
  {
    var n := |s.attempts|;
    DrainStep(s, options, parse);
    var s1 := Drain(s, options).after;
    DrainRegisters(s.subscribers, ConsumeLoop.Validate(options).value);
    ConnectOkStep(s1, n, c, parse);
    ConnectedQuietly(s1, n, c);
  }

  /** `drain` with valid options, its connection and then its channel come up,
      and a message arrives: the topology is installed on the new channel,
      the channel consumes, and the message is acknowledged and announced. */
  lemma DrainThenDeliver(s: State, options: Option<DrainOptions>, c: ConnId, ch: ChanId,
                         delivery: nat, content: string, v: Json, parse: string -> Option<Json>)
    requires ConsumeLoop.Validate(options).Success? && parse(content) == Some(v)
    ensures var n := |s.attempts|;
            var t1 := Step(s, Quietly(DrainCalled(options)), parse);
            var t2 := Step(t1.after, Quietly(ConnectOk(n, c)), parse);
            var t3 := Step(t2.after, Quietly(ChannelOk(n, ch)), parse);
            var t4 := Step(t3.after, Quietly(Deliver(ch, delivery, content)), parse);
            && t3.out == [Notify(ChannelOpened)]
                         + ConsumeLoop.Installs(ch, Properties.DrainTopologies(s) + [ConsumeLoop.Validate(options).value])
            && t4.out == [Call(Ack(ch, delivery)), Message(v)]
  {
    var n := |s.attempts|;
    DrainConnects(s, options, c, parse);
    var s2 := Step(Step(s, Quietly(DrainCalled(options)), parse).after, Quietly(ConnectOk(n, c)), parse).after;
    ChannelOkStep(s2, n, ch, parse);
    ChannelOpenedQuietly(s2, n, ch);
    var s3 := OnChannel(s2, n, ch, {}).after;
    DeliveryOnCurrentChannel(s3, ch, delivery, content, v, parse);
  }
}

=== FILE: wrappers.dfy ===
/** Failure-compatible wrappers used across the model. */
module Wrappers {

  /** An optional value: JavaScript's `null`/`undefined` versus a present value. */
  datatype Option<+T> = None | Some(value: T)

  /** The outcome of an operation that may throw synchronously. */
  datatype Result<+R, +E> = Success(value: R) | Failure(error: E)
}
